=== FILE: README.md ===
# stromboli-go client core in Dafny

This project models the core of `stromboli-go`, the Go client for the
Stromboli agent-execution API. It covers five parts:

- the Server-Sent Events reader behind `Client.Stream`: `readEvent`,
  `Next`, `Event`, `Err` and `Close`, plus how a stream is established;
- the client's pre-network request validation: the request-size limits,
  the JSON-schema keyword check, the `Run`/`RunAsync` validation order,
  and the `GetMessages` bounds;
- the bearer-token check, `SetToken`/`ClearToken`, and the guard that
  `ValidateToken` and `Logout` run first;
- error classification (`handleError`, `handleAPIError`, the
  status-to-code table) and the `Error` type with its sentinels;
- the functional options, applied left to right, plus `SetLogger`/`getLogger`;
- the status predicates of the response types.

Modelling conventions:

- A Go string is a Dafny `string` with one character per byte, so `|s|`
  is Go's `len(s)`. `isValidToken` ranges over runes. On UTF-8 input a
  rune below 0x20 or equal to 0x7f exists exactly when such a byte
  exists: multi-byte sequences and invalid bytes give runes of 0x80 and
  above. So the byte-level predicate `Tokens.IsValidToken` decides the
  same thing.
- A response body is `Body(data, failure)`: the bytes still unread, then
  either a clean end of input (`None`) or a read error carrying its text.
  `bufio.Reader.ReadString('\n')` becomes `EventStream.ReadString`.
- `readEvent` is the total recursive function `EventStream.ReadEventFrom`.
  Its result separates the two successful returns:
  - `Delimited`: a blank line ended the event;
  - `Salvaged`: the input ended with data pending.
  Three behaviours of the Go reader are kept on purpose:
  - a blank line before any data resets neither the type, the id nor
    the byte count;
  - an unterminated final fragment is dropped at end of input;
  - only one `\r` is trimmed from a line.
- The stream is an immutable `Stream` value. `Next` and `Close` return
  the next value. `releases` counts how often the body was closed.
- Calls into code outside the model become parameters:
  - the outcome of `url.Parse` (`Client.ParsedUrl`);
  - the outcome of decoding a JSON schema (`Client.SchemaDecoding`: the
    decode error or the object's key set);
  - the time left before the context deadline (`EffectiveTimeout`);
  - the transport error's classification (`Client.TransportError`);
  - the HTTP exchange of the stream request (`EventStream.Exchange`);
  - what closing the body returns (`EventStream.Close`).
- Durations are integers in nanoseconds, as `time.Duration` is.

## Model

| member | source | states |
|---|---|---|
| GoStrings.CutPrefix | stream.go:265-288 | `strings.CutPrefix` reports whether the prefix was there; when it was not, the string comes back unchanged. |
| GoStrings.CutPrefixLeavesSuffix | stream.go:265-288 | What `CutPrefix` leaves, with the prefix put back, is the original string. |
| GoStrings.TrimSuffix | stream.go:250-251 | `strings.TrimSuffix` removes exactly the suffix when it is there and changes nothing otherwise. |
| GoStrings.TrimSuffixLeavesPrefix | stream.go:250-251 | The trimmed string followed by the suffix is the original string. |
| GoStrings.IndexOf | stream.go:234 | The first position of a character, or none exactly when the character does not occur. |
| GoStrings.JoinSplit | stream.go:265-276 | Splitting a payload at `\n` and joining with `\n` gives the payload back; this makes multi-line data an encoding the reader inverts. |
| GoStrings.Split | stream.go:265-276 | Splitting gives at least one piece; no piece holds the separator; every character of a piece comes from the input. |
| GoStrings.NatToDecimal | client.go:1974-1993 | `%d` of a size is in canonical form (digits only, no leading zero except "0") and denotes exactly that size under the independent reading `DecimalValue`. |
| GoStrings.CanonicalIsNatToDecimal | client.go:1974-1993 | Conversely, every canonical digit string is what `%d` prints for the number it denotes, so printing and reading are inverse. |
| GoStrings.IntToDecimal | client.go:1205 | `%d` of a status: a non-negative one as canonical digits denoting it; a negative one as '-' followed by canonical digits denoting its magnitude. |
| Errors.ErrorString | errors.go:13-18 | `Error()` prints "stromboli: CODE: message", then ": cause" when a cause is wrapped; without a cause nothing follows. |
| Errors.Unwrap | errors.go:20-22 | `Unwrap` yields the cause exactly when there is one, and the printed error is the cause-free text plus ": " plus the cause. |
| Errors.ErrorStringDeterminesCode | errors.go:13-18 | Two errors that print the same carry the same code. |
| Errors.CodeTextInjective | errors.go:13-18 | Distinct codes have distinct texts. |
| Errors.CodeTextHasNoColon | errors.go:13-18 | No code text contains ':', so the code can be read back from the printed error. |
| Errors.SentinelCodesAndStatuses | errors.go:25-31 | The five sentinels carry NOT_FOUND/404, TIMEOUT/408, UNAUTHORIZED/401, BAD_REQUEST/400 and INTERNAL/500. |
| Tokens.IsValidToken | client.go:2041-2049 | A token is valid exactly when every character is at least 0x20 and is not 0x7f. |
| Tokens.LineBreakInvalidatesToken | client.go:2041-2049 | A CR or LF anywhere in a token makes it invalid; the empty token is valid. |
| Options.DefaultConfig | client.go:182-187 | A new client starts with a 30-second timeout, no stream timeout, the user agent "stromboli-go/0.1.0" and no token; this configuration is well formed. |
| Options.SetLogger | options.go:41-49 | Installing nil installs the default logger; anything else is installed as given. |
| Options.SaveAndRestoreLogger | options.go:41-56 | `getLogger` returns what `SetLogger` installed: re-installing what `getLogger` returned restores it; after installing nil, `getLogger` yields the default; after installing a logger, that logger. |
| Options.ApplyTimeout | options.go:90-97 | `WithTimeout` stores the duration, or zero for a negative one, and touches no other field. |
| Options.ApplyStreamTimeout | options.go:119-125 | `WithStreamTimeout` stores a positive duration and ignores zero and negative ones. |
| Options.ApplyRetries | options.go:142-148 | `WithRetries` changes nothing. |
| Options.ApplyHttpClient | options.go:178-185 | `WithHTTPClient` installs a non-nil client and ignores nil. |
| Options.ApplyUserAgent | options.go:199-206 | `WithUserAgent` installs a non-empty agent and ignores the empty one. |
| Options.ApplyToken | options.go:226-236 | `WithToken` stores the empty token or a valid one, and ignores an invalid non-empty one. |
| Options.ApplyRequestHook | options.go:264-268 | `WithRequestHook` installs the hook, nil included. |
| Options.ApplyResponseHook | options.go:283-287 | `WithResponseHook` installs the hook, nil included. |
| Options.Apply | options.go:90-287 | An option never touches the base URL or any field other than its own, and keeps the configuration well formed. |
| Options.ApplyAll | client.go:196-198 | Applying a list of options keeps the base URL and keeps the configuration well formed. |
| Options.TakenOrIgnored | options.go:90-287 | Each option either sets its field to a value that depends on the option alone or changes nothing. |
| Options.ApplyAllConcat | client.go:196-198 | Options apply left to right: applying `a + b` is applying `a`, then `b`. |
| Options.LastTakenOptionWins | client.go:196-198 | An accepted option placed last decides its field, whatever came before it. |
| Options.UntouchedFieldKept | client.go:196-198 | A field that no option in the list targets keeps its starting value. |
| Options.LaterTimeoutWinsExample | options.go:90-97 | `WithTimeout(5s)` followed by `WithTimeout(-1)` leaves a zero timeout. |
| Options.EmptyUserAgentExample | options.go:199-206 | `WithUserAgent("")` keeps the default agent. |
| Options.RejectedTokenExample | options.go:226-236 | A later token holding a newline is ignored; the earlier valid token stays. |
| Client.NewClient | client.go:167-203 | The base URL is refused when it does not parse, has no host, or uses a scheme other than http/https (an absent scheme is accepted). Otherwise the result is the defaults with the options applied in order, and it is well formed. |
| Client.SetToken | client.go:1261-1271 | `SetToken` applies the token rule of `WithToken` and keeps the configuration well formed. |
| Client.ClearToken | client.go:1282-1284 | `ClearToken` empties the token and nothing else. |
| Client.RequireToken | client.go:1402-1405 | The guard of `ValidateToken` and `Logout` fails, with UNAUTHORIZED/401, exactly when no token is set. |
| Client.TokenGuardLifecycle | client.go:1261-1284 | After `ClearToken` the guard fails; after setting a valid non-empty token it passes; an invalid token leaves the guard as it was. |
| Client.EffectiveTimeout | client.go:272-286 | Without a deadline the configured timeout is used. A passed deadline gives zero. Otherwise the result is the smaller of the timeout and the time left. |
| Client.TooLargeMessage | client.go:1974-1993 | A size error names its field, then " exceeds". |
| Client.ValidateRequestSize | client.go:1974-1993 | Rejects exactly the requests that break a byte limit: prompt 1 MiB; system prompt 256 KiB and schema 64 KiB, checked only when Claude options are set. A rejection is BAD_REQUEST/400. |
| Client.SizeErrorNamesField | client.go:1974-1993 | The first limit broken, in the order prompt, system prompt, schema, names itself in the message. |
| Client.HasKeyword | client.go:2016-2033 | The keyword loop succeeds exactly when some keyword of the list is a key of the object. |
| Client.ValidateJsonSchema | client.go:2005-2037 | A schema passes exactly when it decodes to an object holding at least one of the 30 schema keywords; a decode failure reports "not valid JSON: " and the reason. |
| Client.ValidateRun | client.go:473-496 | `Run` passes exactly the acceptable requests. Checks run in order: nil request, empty prompt, size limits, a non-empty schema that fails to decode, resume without a session ID. Every failure is BAD_REQUEST/400 with no cause. Each failure carries the exact message of the first failed check: "request is required", "prompt is required", the size message, "invalid JSON schema: " followed by the decoder error, or "session_id is required when resume is true". |
| Client.PlainRunNeedsOnlyPrompt | client.go:571-594 | A request without Claude options needs only a non-empty prompt within 1 MiB; schema decoding plays no part. |
| Client.GetMessagesQuery | client.go:1025-1052 | A session ID is required, then the limit is checked before the offset. The failures are BAD_REQUEST/400 with "session ID is required", "limit cannot be negative" or "offset cannot be negative". A limit or offset is forwarded exactly when it is positive, and unchanged. |
| Client.HandleApiError | client.go:1198-1220 | Status and cause are kept. The message is the server's text unless that is empty or only the bare status, in which case it is the fallback. The code comes from the table, else INTERNAL for 5xx, else REQUEST_FAILED. |
| Client.ApiErrorCodeClassification | client.go:1183-1220 | 503 is UNAVAILABLE and every other 5xx is INTERNAL. REQUEST_FAILED is exactly a status below 500 outside the table. |
| Client.StatusTableMatchesSentinels | client.go:1183-1193 | The table maps distinct statuses to distinct codes and agrees with every sentinel's own status and code. |
| Client.HandleError | client.go:1157-1180 | nil stays nil and an API error is classified by status. Otherwise cancellation gives CANCELLED/0 "request was cancelled", an expired deadline TIMEOUT/408 "request timed out", anything else REQUEST_FAILED/0 with the caller's message. The original error is always the cause. |
| Client.HandleErrorPrecedence | client.go:1157-1180 | The checks apply in source order: an API error outranks cancellation and an expired deadline, and cancellation outranks the deadline. The caller's message matters only for API errors and unclassified errors. |
| Client.ClassificationExamples | client.go:1183-1220 | 403 maps to FORBIDDEN, 409 to CONFLICT, 502 to INTERNAL and 418 to REQUEST_FAILED. An API error wins over cancellation. |
| Client.BareStatusTextShape | client.go:1205 | The bare text an API error prints is `[`, the status in `%d` form, `] `. |
| Client.BareStatusTextInjective | client.go:1205 | Distinct statuses have distinct bare texts, so only the error's own bare status is replaced by the fallback. |
| Client.ServerTextKeptExample | client.go:1198-1220 | A 500 with the text "boom" gives INTERNAL/500 with message "boom" and the API error as cause. |
| Types.JobPhaseOf | types.go:390-407 | Each job predicate holds exactly when the job's phase is the matching one, so at most one holds. |
| Types.JobPredicatesExclusive | types.go:390-407 | At most one job predicate holds, and none holds for a status outside the five known ones. |
| Types.PendingCountsAsRunning | types.go:395-398 | A pending job counts as running and as nothing else. |
| Types.HealthDecidedByStatus | types.go:41-67 | Overall and component health hold exactly when the status is "ok". |
| Types.RunSuccessDecidedByStatus | types.go:307-309 | A run succeeded exactly when its status is "completed". |
| EventStream.ReadString | stream.go:234 | Reading a line consumes input and keeps the body's end (clean or failed). |
| EventStream.ReadStringSplitsAtFirstNewline | stream.go:234 | A line read is the input up to and including its first `\n`, and the rest is what follows. |
| EventStream.ReadStringEndsWithoutNewline | stream.go:234-241 | The read reaches the end exactly when no `\n` is left; it then returns the whole remainder and the body's end. |
| EventStream.FragmentFollowsLastNewline | stream.go:234-240 | The fragment that end of input drops is a suffix with no `\n`. It is either all of the data or preceded by a `\n`. |
| EventStream.LineLengthIsIndexOf | stream.go:234 | The line length is one past the first `\n`, or zero when there is none. |
| EventStream.Drained | stream.go:234-241 | After the end of input nothing is left to read. |
| EventStream.ApplyField | stream.go:262-291 | A field line never changes the byte count, and data once seen stays seen. |
| EventStream.ApplyDataLine | stream.go:265-276 | `data: v` sets the data to `v` for the first line; later lines append `\n` then `v`. |
| EventStream.ApplyEventLine | stream.go:277-282 | `event: t` overwrites the type with `t`. |
| EventStream.ApplyIdLine | stream.go:283-288 | `id: i` overwrites the id with `i`. |
| EventStream.ApplyOtherLine | stream.go:289-290 | A line with none of the three field prefixes changes nothing. |
| EventStream.LineEffectOf | stream.go:243-259 | A line fails the event exactly when the running count with it exceeds 10 MiB. It ends the event exactly when it is blank, within the limit, and data was seen. Otherwise the count grows by the raw line length. |
| EventStream.ReadEventFrom | stream.go:228-292 | What is left never grows and keeps the read error. A bare end needs no pending data and a clean end. A salvaged event needs a clean end and drains the body. A read error is passed on as its text. A delimited event, and from a within-limit accumulator a salvaged one up to its dropped fragment, stays within 10 MiB. An oversize failure consumed more than 10 MiB. An event delivered from an accumulator with no data has consumed input. Nothing else is promised about consumption: empty input that ends, cleanly or with an error, consumes nothing. |
| EventStream.ReadEvent | stream.go:228-292 | From a fresh event: a delivered event consumed input. A delimited event consumed at most 10 MiB. A salvaged event consumed at most 10 MiB before its dropped fragment. An oversize failure consumed more than 10 MiB. |
| EventStream.Open | stream.go:431-434 | A new stream has no current event, no error, is open, and has released nothing. |
| EventStream.Next | stream.go:97-112 | A closed stream, or one holding an error, answers false and changes nothing. Otherwise it runs `readEvent` once: an event it returns becomes current and the answer is true; a bare end answers false and leaves the error nil; a failure (read error or oversized event) is latched as the error and the answer is false. |
| EventStream.Close | stream.go:143-151 | The first `Close` releases the body once and returns what releasing returned; later calls return nil and change nothing. |
| EventStream.Collect | stream.go:97-112 | Draining a stream by repeated `Next` keeps closed/released state and returns nothing from a closed or failed stream. |
| EventStream.ErrorBodyExcerpt | stream.go:406-417 | The quoted error body is a prefix of the body of at most 4096 bytes, and the whole body when it fits. |
| EventStream.OpenStream | stream.go:353-435 | `Stream` succeeds exactly for a non-nil request with a prompt that gets a 200 response with an event-stream content type. Otherwise it returns, in order: BAD_REQUEST for nil/empty prompt; the classified transport error; STREAM_ERROR with the status and a bounded quote of the body; INVALID_RESPONSE naming the content type. The STREAM_ERROR message is exactly "stream request failed: " followed by the first 4096 bytes of the body, with no cause. |
| EventStream.StreamQuery | stream.go:369-377 | The query values (a list per key) hold the prompt alone under `prompt`, and the workdir and session alone under `workdir` and `session_id` exactly when non-empty; every other key of the base URL keeps all its values. |
| EventStream.StreamHeaders | stream.go:386-394 | The request asks for an event stream without caching, keeps the connection alive, sends the user agent, and sends `Bearer <token>` exactly when a token is set. |
| EventStreamProperties.ContinueStep | stream.go:232-291 | A line that neither fails nor ends the event hands the rest of the input to the next iteration. |
| EventStreamProperties.EndStep | stream.go:254-258 | A blank line after data returns the event built so far, and the input after the line. |
| EventStreamProperties.TooLargeStep | stream.go:244-247 | A line that takes the count past 10 MiB fails the read with "event exceeds maximum size". |
| EventStreamProperties.FieldLineEffect | stream.go:243-291 | A non-blank line adds its raw length, `\n` included, to the count and then applies its field. |
| EventStreamProperties.BlankLineEffect | stream.go:254-259 | A blank line ends the event when data was seen, else is skipped with only the count grown. |
| EventStreamProperties.ReadEventConsumesPrefix | stream.go:228-292 | What `readEvent` leaves unread is a suffix of its input. |
| EventStreamProperties.TrimPlainLine | stream.go:250-251 | A line not ending in `\r` loses exactly its `\n`. |
| EventStreamProperties.OneCarriageReturnTrimmed | stream.go:250-251 | Only one `\r` is trimmed: a line ending `\r\r\n` keeps one `\r`. |
| EventStreamProperties.TrimLineRemovesLineEnding | stream.go:250-251 | Trimming removes a final `\r\n`, else a final `\n`, else a final `\r`, and leaves any other line as it is. |
| EventStreamProperties.FieldValueStripsOneSpace | stream.go:265-288 | After a field name, exactly one space is stripped; a second one stays in the value. |
| EventStreamProperties.FieldValueWithoutSpace | stream.go:265-288 | When no space follows the field name, the value is everything after the colon. |
| EventStreamProperties.CompactDataLine | stream.go:265-276 | `data:X` reads as `data: X`. |
| EventStreamProperties.CompactEventLine | stream.go:277-282 | `event:X` reads as `event: X`. |
| EventStreamProperties.CompactIdLine | stream.go:283-288 | `id:X` reads as `id: X`. |
| EventStreamProperties.LastEventLineWins | stream.go:277-282 | Of two `event:` lines the later one decides the type. |
| EventStreamProperties.RetryAndCommentsIgnored | stream.go:289-290 | `retry:` lines and `:` comments leave the event unchanged. |
| EventStreamProperties.AbsorbCounts | stream.go:243-247 | After a run of field lines the count has grown by their raw lengths, `\n`s included. |
| EventStreamProperties.ReadFieldLines | stream.go:232-291 | Reading a run of field lines within the limit is reading the rest from the event those lines build. |
| EventStreamProperties.BlankLineEndsEvent | stream.go:254-258 | A blank line after data delivers the event and stops right after the line. |
| EventStreamProperties.BlankLineKeepsFields | stream.go:254-259 | A blank line before any data keeps the type, the id and the count so far. |
| EventStreamProperties.OversizeLineFails | stream.go:244-247 | Field lines within the limit followed by a line that crosses it fail the read, and the read stops right after that line. |
| EventStreamProperties.FinalFragmentDropped | stream.go:234-241 | At a clean end with data pending, the event so far is returned and an unterminated final fragment is dropped. |
| EventStreamProperties.ReadErrorLosesPendingEvent | stream.go:234-241 | A read error ends the read with that error, even when data is pending. |
| EventStreamProperties.DataLines | stream.go:265-276 | One `data: ` line per payload line, in order. |
| EventStreamProperties.AbsorbDataLines | stream.go:265-276 | Consecutive data lines join their values with `\n`, appended to any data already seen. |
| EventStreamProperties.AbsorbEventLines | stream.go:262-291 | The lines of an encoded event rebuild exactly that event. |
| EventStreamProperties.ReadEncodedEvent | stream.go:228-292 | Round trip: an event encoded as SSE is read back unchanged and the input after it is untouched, when type and id have no line break, the data no `\r`, and the encoding fits 10 MiB. |
| EventStreamProperties.CollectEncoded | stream.go:97-112 | Round trip: a stream of encoded events yields exactly those events in order; `Err` stays nil at a clean end and is the read error otherwise. |
| EventStreamProperties.ThreeEventScenario | stream.go:228-292 | Two plain events and a typed one with empty data come out in order with no error. |
| EventStreamProperties.ReadDataBlock | stream.go:254-276 | A block of data lines followed by a blank line gives one event whose data are the lines joined with `\n`. |
| EventStreamProperties.MultilineScenario | stream.go:265-276 | Three `data:` lines give one event with the three values joined by `\n`. |
| EventStreamProperties.TypeCarriesAcrossBlankLine | stream.go:254-259 | An `event:` line, a blank line, then data give one event carrying that type. |
| EventStreamProperties.TypeOnlyBlockIsDropped | stream.go:234-259 | A block with a type and no data is never delivered; the read ends as a bare end of input. |
| EventStreamProperties.EventAfterNext | stream.go:117-119 | `Event` is nil on a new stream, is the event `readEvent` produced after `Next` answers true, and is unchanged after false. |
| EventStreamProperties.ErrAfterNext | stream.go:124-126 | `Err` is nil on a new stream; after `Next` on an open stream without an error it is the failure `readEvent` met, or nil when it met none; a set error stays. |
| EventStreamProperties.MaxEventSizeText | stream.go:25 | The 10 MiB ceiling prints in decimal as "10485760". |
| EventStreamProperties.SizeErrorText | stream.go:244-247 | `Err` of an oversized event prints "event exceeds maximum size of 10485760 bytes"; a read error prints its own text. |
| EventStreamProperties.CleanEndIsTerminal | stream.go:97-112 | After `Next` answers false with no error, the input is drained and every later `Next` answers false without change. |
| EventStreamProperties.EndWithoutDataIsClean | stream.go:97-112 | At the end of input with no data seen, `Next` answers false and `Err` stays nil. |
| EventStreamProperties.ErrorIsSticky | stream.go:97-112 | Once `Err` is set, any number of further `Next` calls change nothing. |
| EventStreamProperties.CloseIsIdempotent | stream.go:143-151 | A second `Close` returns nil and releases nothing more; `Next` after `Close` answers false. |
| EventStreamProperties.ServerErrorScenario | stream.go:406-417 | A 400 response with body "Invalid prompt" gives STREAM_ERROR/400 "stream request failed: Invalid prompt". |

## Left out

- Concurrency: the mutexes around the token and the logger, and the atomic `closed` flag.
- The channel API `Events`/`EventsWithContext` (stream.go:153-225) is not modelled. It pumps `Next` into a channel and does four things beyond `Next`. A watcher goroutine calls `Close` when the context is done (stream.go:184-190), after which every `Next` answers false. A recovered panic is stored directly as the stream's error without going through `Next` (stream.go:173-176). Each event is copied before it is sent (stream.go:196). Sending stops when the context is done (stream.go:199-200). `Close` and `Next` themselves are modelled; the goroutines, the channel and the panic path are not.
- HTTP I/O. The response body is an input value, and the round trip of the stream request is the `Exchange` input.
- The REST wrappers around the generated API client (health, jobs, sessions, secrets, images, auth calls) beyond the validation and token guard modelled above. They only forward to code that is not part of this model.
- `url.Parse`, `json.Unmarshal` and the classification of Go errors are inputs, not parsers.
- EventStream.OpenStream: the `url.Parse` failure of an already validated base URL and the failure of `http.NewRequestWithContext` are not modelled; the path join is not modelled either.
- EventStream.StreamQuery: the rendering of the values into the raw query string (`query.Encode`: keys sorted, values percent-escaped) is not modelled.
- Client.NewClient: the default transport and the generated API client it installs are not modelled.
- Client.EffectiveTimeout: the wall clock is replaced by the time left before the deadline, given as an input.
- Logging: the warning `WithToken` and `SetToken` log for an invalid token is a side effect not modelled; only the logger selection is.
- Errors.CodeText: ErrRateLimited and ErrUnavailable are defined in a file that is not part of this model. RATE_LIMITED and UNAVAILABLE stand in for their codes. The model relies on them being distinct upper-case words: distinct from every other code text, and free of ':' (CodeTextHasNoColon, and through it ErrorStringDeterminesCode).
- `newError` and `wrapError` are defined in a file that is not part of this model. They are taken to build `Error` with the given code, message, status and cause.
- EventStream.ReadEventFrom: the read-error text is carried as given. Go's `io.EOF` identity is the `None` end of the body.
- EventStream.FieldValue: stated for the `data:`/`event:`/`id:` forms with and without one leading space through lemmas, not by its own contract.
- Version checks, the code generation script, and the end-to-end tests.

=== FILE: client.dfy ===
/** The pure decisions of client.go: client construction over an already
    parsed base URL, token state, request validation ahead of any network
    call, the effective timeout, and the classification of transport and
    HTTP failures into typed errors. */
module Client {
  import opened Wrappers
  import opened GoStrings
  import opened Errors
  import opened Tokens
  import opened Options

  // ---------------------------------------------------------------------
  // Construction

  /** What `url.Parse` made of the base URL: a failure with its reason, or
      the scheme and host it found. */
  datatype ParsedUrl = UrlParseFailed(reason: string) | Parsed(scheme: string, host: string)

  /** The three reasons `NewClient` refuses a base URL. */
  datatype InitError = InvalidBaseUrl(reason: string) | MissingHost | UnsupportedScheme(scheme: string)

  predicate SupportedScheme(scheme: string) {
    scheme == "" || scheme == "http" || scheme == "https"
  }

  /** `NewClient`: refuse an unparsable URL, a URL without a host, and a
      scheme other than http or https (an absent scheme is accepted); then
      start from the defaults and apply the options in order. */
  function NewClient(baseUrl: string, parsed: ParsedUrl, opts: seq<ClientOption>): (r: Result<Config, InitError>)
    ensures r.Ok? <==> parsed.Parsed? && parsed.host != "" && SupportedScheme(parsed.scheme)
    ensures parsed.UrlParseFailed? ==> r == Err(InvalidBaseUrl(parsed.reason))
    ensures parsed.Parsed? && parsed.host == "" ==> r == Err(MissingHost)
    ensures parsed.Parsed? && parsed.host != "" && !SupportedScheme(parsed.scheme) ==>
              r == Err(UnsupportedScheme(parsed.scheme))
    ensures r.Ok? ==> WellFormed(r.value) && r.value.baseUrl == baseUrl
    ensures r.Ok? ==> r.value == ApplyAll(DefaultConfig(baseUrl), opts)
  {
    match parsed
    case UrlParseFailed(reason) => Err(InvalidBaseUrl(reason))
    case Parsed(scheme, host) =>
      if host == "" then Err(MissingHost)
      else if scheme != "" && scheme != "http" && scheme != "https" then Err(UnsupportedScheme(scheme))
      else Ok(ApplyAll(DefaultConfig(baseUrl), opts))
  }

  // ---------------------------------------------------------------------
  // Token state

  /** `SetToken`: the same rule as the `WithToken` option. */
  function SetToken(c: Config, token: string): (r: Config)
    ensures r == ApplyToken(c, token)
    ensures WellFormed(c) ==> WellFormed(r)
  {
    if token != "" && !IsValidToken(token) then c else c.(token := token)
  }

  /** `ClearToken`: `SetToken("")`. */
  function ClearToken(c: Config): (r: Config)
    ensures r == c.(token := "")
  {
    SetToken(c, "")
  }

  /** The guard at the top of `ValidateToken` and `Logout`: without a stored
      token they fail with UNAUTHORIZED / 401 before any request. */
  function RequireToken(c: Config): (r: Option<Error>)
    ensures r.Some? <==> c.token == ""
    ensures r.Some? ==> r.value.code == Unauthorized && r.value.status == 401 && r.value.cause.None?
  {
    if c.token == "" then Some(Error(Unauthorized, "no token set, use SetToken() first", 401, None))
    else None
  }

  /** How the token operations drive the guard: after clearing it fails,
      after storing a valid non-empty token it passes, and a rejected token
      leaves its verdict as it was. */
  lemma TokenGuardLifecycle(c: Config, token: string)
    ensures RequireToken(ClearToken(c)).Some?
    ensures token != "" && IsValidToken(token) ==> RequireToken(SetToken(c, token)).None?
    ensures token != "" && !IsValidToken(token) ==> RequireToken(SetToken(c, token)) == RequireToken(c)
  {
  }

  // ---------------------------------------------------------------------
  // Timeouts

  /** `effectiveTimeout`: the client timeout, cut down to the time left
      before the context's deadline when there is one; zero once the
      deadline has passed. `remaining` is the time until the deadline. */
  function EffectiveTimeout(timeout: int, remaining: Option<int>): (r: int)
    ensures remaining.None? ==> r == timeout
    ensures remaining.Some? && remaining.value <= 0 ==> r == 0
    ensures remaining.Some? && remaining.value > 0 ==>
              r <= timeout && r <= remaining.value && (r == timeout || r == remaining.value)
  {
    match remaining
    case None => timeout
    case Some(left) =>
      if left <= 0 then 0
      else if left < timeout then left
      else timeout
  }

  // ---------------------------------------------------------------------
  // Run / RunAsync validation

  const MaxPromptSize: nat := 1048576     // 1 MiB
  const MaxSystemPromptSize: nat := 262144 // 256 KiB
  const MaxJsonSchemaSize: nat := 65536    // 64 KiB

  /** The Claude options the validation reads. */
  datatype ClaudeOptions = ClaudeOptions(sessionId: string, resume: bool, systemPrompt: string, jsonSchema: string)

  /** The parts of `RunRequest` the validation reads; `claude` is nil-able. */
  datatype RunRequest = RunRequest(prompt: string, claude: Option<ClaudeOptions>)

  function BadRequestError(message: string): Error {
    Error(BadRequest, message, 400, None)
  }

  function TooLargeMessage(what: string, limit: nat, got: nat): (m: string)
    ensures HasPrefix(m, what + " exceeds")
  {
    var tail := " maximum size of " + NatToDecimal(limit) + " bytes (got " + NatToDecimal(got) + ")";
    assert what + " exceeds" + tail == (what + " exceeds") + tail;
    (what + " exceeds") + tail
  }

  /** All three size limits hold. */
  predicate WithinSizeLimits(req: RunRequest) {
    && |req.prompt| <= MaxPromptSize
    && (req.claude.Some? ==>
          |req.claude.value.systemPrompt| <= MaxSystemPromptSize
          && |req.claude.value.jsonSchema| <= MaxJsonSchemaSize)
  }

  /** `validateRequestSize`: prompt, then system prompt, then schema, each
      against its byte limit; the Claude fields only when options are set. */
  function ValidateRequestSize(req: RunRequest): (r: Option<Error>)
    ensures r.None? <==> WithinSizeLimits(req)
    ensures r.Some? ==> r.value.code == BadRequest && r.value.status == 400 && r.value.cause.None?
  {
    if |req.prompt| > MaxPromptSize then
      Some(BadRequestError(TooLargeMessage("prompt", MaxPromptSize, |req.prompt|)))
    else if req.claude.Some? then
      var claude := req.claude.value;
      if |claude.systemPrompt| > MaxSystemPromptSize then
        Some(BadRequestError(TooLargeMessage("system prompt", MaxSystemPromptSize, |claude.systemPrompt|)))
      else if |claude.jsonSchema| > MaxJsonSchemaSize then
        Some(BadRequestError(TooLargeMessage("JSON schema", MaxJsonSchemaSize, |claude.jsonSchema|)))
      else None
    else None
  }

  /** The size error names the first field over its limit, checked in the
      order prompt, system prompt, schema. */
  lemma SizeErrorNamesField(req: RunRequest)
    ensures |req.prompt| > MaxPromptSize ==> HasPrefix(ValidateRequestSize(req).value.message, "prompt exceeds")
    ensures |req.prompt| <= MaxPromptSize && req.claude.Some?
            && |req.claude.value.systemPrompt| > MaxSystemPromptSize ==>
              HasPrefix(ValidateRequestSize(req).value.message, "system prompt exceeds")
    ensures |req.prompt| <= MaxPromptSize && req.claude.Some?
            && |req.claude.value.systemPrompt| <= MaxSystemPromptSize
            && |req.claude.value.jsonSchema| > MaxJsonSchemaSize ==>
              HasPrefix(ValidateRequestSize(req).value.message, "JSON schema exceeds")
  {
    assert "prompt" + " exceeds" == "prompt exceeds";
    assert "system prompt" + " exceeds" == "system prompt exceeds";
    assert "JSON schema" + " exceeds" == "JSON schema exceeds";
  }

  /** The outcome of decoding the schema text into a JSON object: either the
      decoder's complaint or the object's top-level keys. */
  datatype SchemaDecoding = NotJsonObject(reason: string) | JsonObject(keys: set<string>)

  /** The keywords whose presence makes a decoded object pass as a schema,
      in the order they are tried. */
  const SchemaKeywords: seq<string> := [
    "type", "$ref", "oneOf", "anyOf", "allOf", "enum", "const",
    "properties", "required", "additionalProperties", "patternProperties",
    "items", "additionalItems", "contains",
    "definitions", "$defs", "not", "if", "then", "else",
    "minimum", "maximum", "minLength", "maxLength", "pattern",
    "minItems", "maxItems", "uniqueItems",
    "minProperties", "maxProperties"
  ]

  /** The keyword loop: true as soon as one keyword is a key. */
  function HasKeyword(keys: set<string>, keywords: seq<string>): (r: bool)
    ensures r <==> exists i :: 0 <= i < |keywords| && keywords[i] in keys
    decreases |keywords|
  {
    if |keywords| == 0 then false
    else if keywords[0] in keys then true
    else
      var found := HasKeyword(keys, keywords[1..]);
      assert forall i :: 1 <= i < |keywords| ==> keywords[i] == keywords[1..][i - 1];
      found
  }

  /** `validateJSONSchema` after decoding: the schema must decode, and must
      name at least one recognised schema keyword at top level. */
  function ValidateJsonSchema(decoded: SchemaDecoding): (r: Option<string>)
    ensures r.None? <==> decoded.JsonObject? && exists i :: 0 <= i < |SchemaKeywords| && SchemaKeywords[i] in decoded.keys
    ensures decoded.NotJsonObject? ==> r == Some("not valid JSON: " + decoded.reason)
  {
    match decoded
    case NotJsonObject(reason) => Some("not valid JSON: " + reason)
    case JsonObject(keys) =>
      if HasKeyword(keys, SchemaKeywords) then None
      else Some("schema must contain at least one JSON Schema keyword (type, properties, items, etc.)")
  }

  /** Whether a request survives every pre-network check of `Run`. */
  predicate RunAcceptable(req: Option<RunRequest>, schema: SchemaDecoding) {
    && req.Some?
    && req.value.prompt != ""
    && WithinSizeLimits(req.value)
    && (req.value.claude.Some? ==>
          && (req.value.claude.value.jsonSchema != "" ==> ValidateJsonSchema(schema).None?)
          && (req.value.claude.value.resume ==> req.value.claude.value.sessionId != ""))
  }

  /** The pre-network validation shared by `Run` and `RunAsync`, in order:
      nil request, empty prompt, size limits, schema (only when options carry
      a non-empty one; `schema` is what decoding it gave), and resume without
      a session ID. Every failure is BAD_REQUEST / 400. */
  function ValidateRun(req: Option<RunRequest>, schema: SchemaDecoding): (r: Option<Error>)
    ensures r.None? <==> RunAcceptable(req, schema)
    ensures r.Some? ==> r.value.code == BadRequest && r.value.status == 400 && r.value.cause.None?
    ensures req.None? ==> r == Some(BadRequestError("request is required"))
    ensures req.Some? && req.value.prompt == "" ==> r == Some(BadRequestError("prompt is required"))
    ensures req.Some? && req.value.prompt != "" && !WithinSizeLimits(req.value) ==>
              r == ValidateRequestSize(req.value)
    ensures req.Some? && req.value.prompt != "" && WithinSizeLimits(req.value)
            && req.value.claude.Some? && req.value.claude.value.jsonSchema != ""
            && ValidateJsonSchema(schema).Some? ==>
              HasPrefix(r.value.message, "invalid JSON schema: ")
              && r == Some(BadRequestError("invalid JSON schema: " + ValidateJsonSchema(schema).value))
    ensures req.Some? && req.value.prompt != "" && WithinSizeLimits(req.value)
            && req.value.claude.Some?
            && (req.value.claude.value.jsonSchema == "" || ValidateJsonSchema(schema).None?)
            && req.value.claude.value.resume && req.value.claude.value.sessionId == "" ==>
              r == Some(BadRequestError("session_id is required when resume is true"))
  {
    if req.None? then Some(BadRequestError("request is required"))
    else if req.value.prompt == "" then Some(BadRequestError("prompt is required"))
    else
      var sizeError := ValidateRequestSize(req.value);
      if sizeError.Some? then sizeError
      else
        var claude := req.value.claude;
        if claude.Some? && claude.value.jsonSchema != "" && ValidateJsonSchema(schema).Some? then
          Some(BadRequestError("invalid JSON schema: " + ValidateJsonSchema(schema).value))
        else if claude.Some? && claude.value.resume && claude.value.sessionId == "" then
          Some(BadRequestError("session_id is required when resume is true"))
        else None
  }

  /** Without Claude options the schema decoding is never consulted, and a
      non-empty prompt within 1 MiB is enough. */
  lemma PlainRunNeedsOnlyPrompt(prompt: string, schema: SchemaDecoding, other: SchemaDecoding)
    ensures ValidateRun(Some(RunRequest(prompt, None)), schema) == ValidateRun(Some(RunRequest(prompt, None)), other)
    ensures ValidateRun(Some(RunRequest(prompt, None)), schema).None? <==> prompt != "" && |prompt| <= MaxPromptSize
  {
  }

  // ---------------------------------------------------------------------
  // GetMessages pagination

  /** `GetMessagesOptions`; nil-able at the call. */
  datatype MessagesOptions = MessagesOptions(limit: int, offset: int)

  /** The request parameters `GetMessages` sends: unset limit or offset are
      left to the server's defaults. */
  datatype MessagesQuery = MessagesQuery(sessionId: string, limit: Option<int>, offset: Option<int>)

  /** `GetMessages` before the call: a session ID is required, negative
      limit or offset are refused, and each is forwarded only when positive
      (zero means "not set"). */
  function GetMessagesQuery(sessionId: string, opts: Option<MessagesOptions>): (r: Result<MessagesQuery, Error>)
    ensures r.Ok? <==> sessionId != "" && (opts.Some? ==> opts.value.limit >= 0 && opts.value.offset >= 0)
    ensures r.Err? ==> r.error.code == BadRequest && r.error.status == 400
    ensures sessionId == "" ==> r == Err(BadRequestError("session ID is required"))
    ensures sessionId != "" && opts.Some? && opts.value.limit < 0 ==>
              r == Err(BadRequestError("limit cannot be negative"))
    ensures sessionId != "" && opts.Some? && opts.value.limit >= 0 && opts.value.offset < 0 ==>
              r == Err(BadRequestError("offset cannot be negative"))
    ensures r.Ok? ==> r.value.sessionId == sessionId
    ensures r.Ok? ==> (r.value.limit.Some? <==> opts.Some? && opts.value.limit > 0)
    ensures r.Ok? ==> (r.value.offset.Some? <==> opts.Some? && opts.value.offset > 0)
    ensures r.Ok? && r.value.limit.Some? ==> r.value.limit.value == opts.value.limit
    ensures r.Ok? && r.value.offset.Some? ==> r.value.offset.value == opts.value.offset
  {
    if sessionId == "" then Err(BadRequestError("session ID is required"))
    else
      match opts
      case None => Ok(MessagesQuery(sessionId, None, None))
      case Some(o) =>
        if o.limit < 0 then Err(BadRequestError("limit cannot be negative"))
        else if o.offset < 0 then Err(BadRequestError("offset cannot be negative"))
        else
          Ok(MessagesQuery(sessionId,
                           if o.limit > 0 then Some(o.limit) else None,
                           if o.offset > 0 then Some(o.offset) else None))
  }

  // ---------------------------------------------------------------------
  // Error classification

  /** A go-swagger API error: the HTTP status and the text its `Error()`
      prints. */
  datatype ApiError = ApiError(status: int, text: string)

  /** The status-to-code table, built from the sentinels where one exists. */
  const StatusToCode: map<int, Code> := map[
    400 := ErrBadRequest.code,
    401 := ErrUnauthorized.code,
    403 := Forbidden,
    404 := ErrNotFound.code,
    409 := Conflict,
    408 := ErrTimeout.code,
    429 := RateLimited,
    503 := Unavailable,
    500 := ErrInternal.code
  ]

  /** The text an API error prints when it carries nothing but its status:
      `[%d] `. Its shape is stated by `BareStatusTextShape`. */
  function BareStatusText(status: int): string {
    "[" + IntToDecimal(status) + "] "
  }

  /** The bare text is the status in decimal between brackets, then a space. */
  lemma BareStatusTextShape(status: int)
    ensures var r := BareStatusText(status);
            && |r| >= 4 && r[0] == '[' && r[|r| - 2..] == "] "
            && (status >= 0 ==> Canonical(r[1..|r| - 2]) && DecimalValue(r[1..|r| - 2]) == status)
            && (status < 0 ==> r[1] == '-' && Canonical(r[2..|r| - 2]) && DecimalValue(r[2..|r| - 2]) == -status)
  {
    var d := IntToDecimal(status);
    var r := BareStatusText(status);
    assert r[1..|r| - 2] == d;
    assert status < 0 ==> r[2..|r| - 2] == d[1..];
  }

  /** Distinct statuses have distinct bare texts, so the comparison in
      `handleAPIError` recognises exactly the status the error carries. */
  lemma BareStatusTextInjective(a: int, b: int)
    requires BareStatusText(a) == BareStatusText(b)
    ensures a == b
  {
    BareStatusTextShape(a);
    BareStatusTextShape(b);
    var t := BareStatusText(a);
    assert t[1..|t| - 2][0] == t[1];
  }

  /** `handleAPIError`: the server's own text when it says more than the bare
      status, else the caller's fallback; the code from the table, else
      INTERNAL for any other 5xx, else REQUEST_FAILED; the status and the
      API error itself are always kept. */
  function HandleApiError(api: ApiError, fallback: string): (e: Error)
    ensures e.status == api.status
    ensures e.cause == Some(api.text)
    ensures api.text == "" || api.text == BareStatusText(api.status) ==> e.message == fallback
    ensures api.text != "" && api.text != BareStatusText(api.status) ==> e.message == api.text
    ensures api.status in StatusToCode ==> e.code == StatusToCode[api.status]
    ensures api.status !in StatusToCode && api.status >= 500 ==> e.code == Internal
    ensures api.status !in StatusToCode && api.status < 500 ==> e.code == RequestFailed
  {
    var message := if api.text != "" && api.text != BareStatusText(api.status) then api.text else fallback;
    if api.status in StatusToCode then Error(StatusToCode[api.status], message, api.status, Some(api.text))
    else if api.status >= 500 then Error(ErrInternal.code, message, api.status, Some(api.text))
    else Error(RequestFailed, message, api.status, Some(api.text))
  }

  /** Server-side statuses never classify as a client-side failure: every
      status of 500 or more gives INTERNAL, except 503 which gives
      UNAVAILABLE. REQUEST_FAILED is given exactly to the statuses below 500
      outside the table. */
  lemma ApiErrorCodeClassification(api: ApiError, fallback: string)
    ensures api.status >= 500 && api.status != 503 ==> HandleApiError(api, fallback).code == Internal
    ensures api.status == 503 ==> HandleApiError(api, fallback).code == Unavailable
    ensures HandleApiError(api, fallback).code == RequestFailed <==>
              api.status < 500 && api.status !in {400, 401, 403, 404, 408, 409, 429}
  {
  }

  /** The table is one-to-one and agrees with the sentinels: each sentinel's
      status maps back to that sentinel's code. */
  lemma StatusTableMatchesSentinels(s1: int, s2: int)
    requires s1 in StatusToCode && s2 in StatusToCode && StatusToCode[s1] == StatusToCode[s2]
    ensures s1 == s2
    ensures StatusToCode[ErrNotFound.status] == ErrNotFound.code
    ensures StatusToCode[ErrTimeout.status] == ErrTimeout.code
    ensures StatusToCode[ErrUnauthorized.status] == ErrUnauthorized.code
    ensures StatusToCode[ErrBadRequest.status] == ErrBadRequest.code
    ensures StatusToCode[ErrInternal.status] == ErrInternal.code
  {
  }

  /** How a transport-level error presents itself to the classifier: the API
      error found in its chain (if any), whether the chain holds a context
      cancellation or a deadline expiry, and its own text. */
  datatype TransportError = TransportError(api: Option<ApiError>, canceled: bool, deadlineExceeded: bool, text: string)

  /** `handleError`: nil stays nil; an API error is classified by status;
      otherwise cancellation gives CANCELLED / 0, an expired deadline gives
      TIMEOUT / 408, and anything else REQUEST_FAILED / 0 with the caller's
      message. The original error is kept as the cause. */
  function HandleError(err: Option<TransportError>, message: string): (r: Option<Error>)
    ensures r.None? <==> err.None?
    ensures err.Some? && err.value.api.Some? ==> r == Some(HandleApiError(err.value.api.value, message))
    ensures err.Some? && err.value.api.None? ==> r.value.cause == Some(err.value.text)
    ensures err.Some? && err.value.api.None? && err.value.canceled ==>
              r.value.code == Cancelled && r.value.status == 0 && r.value.message == "request was cancelled"
    ensures err.Some? && err.value.api.None? && !err.value.canceled && err.value.deadlineExceeded ==>
              r.value.code == Timeout && r.value.status == 408 && r.value.message == "request timed out"
    ensures err.Some? && err.value.api.None? && !err.value.canceled && !err.value.deadlineExceeded ==>
              r.value.code == RequestFailed && r.value.status == 0 && r.value.message == message
  {
    match err
    case None => None
    case Some(e) =>
      if e.api.Some? then Some(HandleApiError(e.api.value, message))
      else if e.canceled then Some(Error(Cancelled, "request was cancelled", 0, Some(e.text)))
      else if e.deadlineExceeded then Some(Error(Timeout, "request timed out", 408, Some(e.text)))
      else Some(Error(RequestFailed, message, 0, Some(e.text)))
  }

  /** The classification examples the source's tests rely on. */
  lemma ClassificationExamples()
    ensures HandleApiError(ApiError(403, ""), "m").code == Forbidden
    ensures HandleApiError(ApiError(409, ""), "m").code == Conflict
    ensures HandleApiError(ApiError(502, ""), "m").code == Internal
    ensures HandleApiError(ApiError(418, ""), "m").code == RequestFailed
    ensures HandleError(Some(TransportError(Some(ApiError(404, "")), true, true, "x")), "m").value.code == NotFound
  {
  }

  /** The checks apply in source order: an API error outranks both context
      errors, and cancellation outranks an expired deadline. Only the
      unclassified case and the API case depend on the caller's message. */
  lemma HandleErrorPrecedence(e: TransportError, m1: string, m2: string)
    ensures e.api.Some? ==>
              HandleError(Some(e), m1) == HandleError(Some(e.(canceled := false, deadlineExceeded := false)), m1)
    ensures e.api.None? && e.canceled ==>
              HandleError(Some(e), m1) == HandleError(Some(e.(deadlineExceeded := !e.deadlineExceeded)), m2)
    ensures e.api.None? && (e.canceled || e.deadlineExceeded) ==> HandleError(Some(e), m1) == HandleError(Some(e), m2)
  {
  }

  /** A 500 whose text says more than its bare status keeps that text as
      its message. */
  lemma ServerTextKeptExample()
    ensures HandleApiError(ApiError(500, "boom"), "m") == Error(Internal, "boom", 500, Some("boom"))
  {
    assert BareStatusText(500)[0] == '[' != "boom"[0];
  }
}

=== FILE: errors.dfy ===
/** The client's typed error (errors.go): a machine-readable code, a
    human-readable message, the HTTP status (0 when there is none) and an
    optional wrapped cause. */
module Errors {
  import opened Wrappers
  import opened GoStrings

  /** Every error code the modelled code paths produce. */
  datatype Code =
    | BadRequest | Unauthorized | Forbidden | NotFound | Conflict | Timeout
    | RateLimited | Unavailable | Internal | RequestFailed | Cancelled
    | StreamError | InvalidResponse

  /** The code as it appears on the wire and in messages. RateLimited and
      Unavailable belong to sentinels defined outside the modelled files;
      their texts here only need to be distinct upper-case words. */
  function CodeText(c: Code): string {
    match c
    case BadRequest => "BAD_REQUEST"
    case Unauthorized => "UNAUTHORIZED"
    case Forbidden => "FORBIDDEN"
    case NotFound => "NOT_FOUND"
    case Conflict => "CONFLICT"
    case Timeout => "TIMEOUT"
    case RateLimited => "RATE_LIMITED"
    case Unavailable => "UNAVAILABLE"
    case Internal => "INTERNAL"
    case RequestFailed => "REQUEST_FAILED"
    case Cancelled => "CANCELLED"
    case StreamError => "STREAM_ERROR"
    case InvalidResponse => "INVALID_RESPONSE"
  }

  /** A wrapped cause is represented by the text its own `Error()` prints. */
  datatype Error = Error(code: Code, message: string, status: int, cause: Option<string>)

  const ErrorPrefix: string := "stromboli: "

  /** `Error.Error()`: "stromboli: CODE: message", followed by ": cause" when
      a cause is wrapped. */
  function ErrorString(e: Error): (r: string)
    ensures HasPrefix(r, ErrorPrefix + CodeText(e.code) + ": " + e.message)
    ensures e.cause.None? ==> |r| == |ErrorPrefix| + |CodeText(e.code)| + 2 + |e.message|
    ensures e.cause.Some? ==> HasSuffix(r, ": " + e.cause.value)
  {
    var head := ErrorPrefix + CodeText(e.code) + ": " + e.message;
    match e.cause
    case None => head
    case Some(text) => head + ": " + text
  }

  /** `Error.Unwrap()`: the wrapped cause, `None` when there is none. */
  function Unwrap(e: Error): (r: Option<string>)
    ensures r.Some? <==> e.cause.Some?
    ensures r.Some? ==> ErrorString(e) == ErrorString(e.(cause := None)) + ": " + r.value
  {
    e.cause
  }

  /** No code text contains a colon, so the code ends where the first colon
      after the prefix stands. */
  lemma CodeTextHasNoColon(c: Code)
    ensures ':' !in CodeText(c)
  {
  }

  /** The code can be read back from the error string: two errors that print
      the same carry the same code. */
  lemma ErrorStringDeterminesCode(a: Error, b: Error)
    requires ErrorString(a) == ErrorString(b)
    ensures a.code == b.code
  {
    var ta, tb := CodeText(a.code), CodeText(b.code);
    ErrorStringShape(a);
    ErrorStringShape(b);
    assert ta + AfterCode(a) == ErrorString(a)[|ErrorPrefix|..];
    assert tb + AfterCode(b) == ErrorString(b)[|ErrorPrefix|..];
    CodeTextHasNoColon(a.code);
    CodeTextHasNoColon(b.code);
    ColonDelimitedHead(ta, AfterCode(a), tb, AfterCode(b));
    CodeTextInjective(a.code, b.code);
  }

  /** What the error string holds after the code: ": message" and the
      optional ": cause". */
  function AfterCode(e: Error): (r: string)
    ensures |r| > 0 && r[0] == ':'
  {
    ": " + e.message + (if e.cause.Some? then ": " + e.cause.value else "")
  }

  lemma ErrorStringShape(e: Error)
    ensures ErrorString(e) == ErrorPrefix + (CodeText(e.code) + AfterCode(e))
  {
  }

  /** Two colon-free heads each followed by a colon-led tail can only spell
      the same string if the heads agree. */
  lemma ColonDelimitedHead(ta: string, ra: string, tb: string, rb: string)
    requires ':' !in ta && ':' !in tb
    requires |ra| > 0 && ra[0] == ':' && |rb| > 0 && rb[0] == ':'
    requires ta + ra == tb + rb
    ensures ta == tb
  {
    assert ta == (ta + ra)[..|ta|];
    assert tb == (tb + rb)[..|tb|];
  }

  /** Distinct codes print differently. */
  lemma CodeTextInjective(a: Code, b: Code)
    requires CodeText(a) == CodeText(b)
    ensures a == b
  {
  }

  // The sentinel errors: fixed code / message / status triples.
  const ErrNotFound: Error := Error(NotFound, "resource not found", 404, None)
  const ErrTimeout: Error := Error(Timeout, "request timed out", 408, None)
  const ErrUnauthorized: Error := Error(Unauthorized, "invalid credentials", 401, None)
  const ErrBadRequest: Error := Error(BadRequest, "invalid request", 400, None)
  const ErrInternal: Error := Error(Internal, "internal server error", 500, None)

  /** The sentinels carry the codes and statuses they are documented with,
      and print without a cause suffix. */
  lemma SentinelCodesAndStatuses()
    ensures ErrNotFound.code == NotFound && ErrNotFound.status == 404
    ensures ErrTimeout.code == Timeout && ErrTimeout.status == 408
    ensures ErrUnauthorized.code == Unauthorized && ErrUnauthorized.status == 401
    ensures ErrBadRequest.code == BadRequest && ErrBadRequest.status == 400
    ensures ErrInternal.code == Internal && ErrInternal.status == 500
  {
  }
}

=== FILE: options.dfy ===
/** The client's configuration record and the functional options that adjust
    it (options.go), applied left to right as `NewClient` does. Durations
    are whole nanoseconds, as Go's `time.Duration` counts them. */
module Options {
  import opened Wrappers
  import opened Tokens

  const Version: string := "0.1.0"
  const Second: int := 1000000000
  const DefaultTimeout: int := 30 * Second
  const DefaultUserAgent: string := "stromboli-go/" + Version

  /** The HTTP client in use: the client's own default one, or one the
      caller supplied (identified by name). */
  datatype HttpClient = DefaultHttpClient | CustomHttpClient(name: string)

  /** A request or response hook; `NoHook` is Go's nil. */
  datatype Hook = NoHook | Hook(name: string)

  /** The package-wide logger: the standard-log default or a caller's one. */
  datatype Logger = DefaultLogger | CustomLogger(name: string)

  /** The configurable fields of `Client`. */
  datatype Config = Config(
    baseUrl: string,
    httpClient: HttpClient,
    timeout: int,
    streamTimeout: int,
    userAgent: string,
    token: string,
    requestHook: Hook,
    responseHook: Hook)

  /** What every configuration built by `NewClient` satisfies: durations are
      not negative, a user agent is always set, and a stored token is either
      empty or free of control characters. */
  predicate WellFormed(c: Config) {
    && c.timeout >= 0
    && c.streamTimeout >= 0
    && c.userAgent != ""
    && (c.token == "" || IsValidToken(c.token))
  }

  /** The configuration `NewClient` starts from before applying options:
      30-second timeout, no stream timeout, "stromboli-go/0.1.0", no token. */
  function DefaultConfig(baseUrl: string): (c: Config)
    ensures WellFormed(c)
    ensures c.baseUrl == baseUrl && c.token == "" && c.streamTimeout == 0
    ensures c.timeout == DefaultTimeout && c.userAgent == DefaultUserAgent
  {
    Config(baseUrl, DefaultHttpClient, DefaultTimeout, 0, DefaultUserAgent, "", NoHook, NoHook)
  }

  /** `SetLogger`: the logger installed afterwards; nil restores the default. */
  function SetLogger(l: Option<Logger>): (installed: Logger)
    ensures l.None? ==> installed == DefaultLogger
    ensures l.Some? ==> installed == l.value
  {
    match l
    case None => DefaultLogger
    case Some(given) => given
  }

  /** `getLogger`: the logger currently installed. */
  function GetLogger(installed: Logger): Logger {
    installed
  }

  /** Saving the current logger and installing it again later restores it
      exactly, and installing nil always yields the default logger. */
  lemma SaveAndRestoreLogger(installed: Logger, other: Option<Logger>)
    ensures SetLogger(Some(GetLogger(installed))) == installed
    ensures GetLogger(SetLogger(None)) == DefaultLogger
    ensures other.Some? ==> GetLogger(SetLogger(other)) == other.value
  {
  }

  /** Each functional option, as the value passed to `NewClient`. */
  datatype ClientOption =
    | WithTimeout(d: int)
    | WithStreamTimeout(d: int)
    | WithRetries(n: int)
    | WithHttpClient(client: Option<HttpClient>)
    | WithUserAgent(userAgent: string)
    | WithToken(token: string)
    | WithRequestHook(hook: Hook)
    | WithResponseHook(hook: Hook)

  /** `WithTimeout`: a negative duration is stored as zero. */
  function ApplyTimeout(c: Config, d: int): (r: Config)
    ensures r == c.(timeout := r.timeout)
    ensures r.timeout >= 0
    ensures d >= 0 ==> r.timeout == d
    ensures d < 0 ==> r.timeout == 0
  {
    c.(timeout := if d < 0 then 0 else d)
  }

  /** `WithStreamTimeout`: only a positive duration is stored. */
  function ApplyStreamTimeout(c: Config, d: int): (r: Config)
    ensures d > 0 ==> r == c.(streamTimeout := d)
    ensures d <= 0 ==> r == c
  {
    if d > 0 then c.(streamTimeout := d) else c
  }

  /** `WithRetries`: deprecated; it may log a warning but never changes the
      configuration. */
  function ApplyRetries(c: Config, n: int): (r: Config)
    ensures r == c
  {
    c
  }

  /** `WithHTTPClient`: a nil client is ignored. */
  function ApplyHttpClient(c: Config, client: Option<HttpClient>): (r: Config)
    ensures client.Some? ==> r == c.(httpClient := client.value)
    ensures client.None? ==> r == c
  {
    match client
    case None => c
    case Some(h) => c.(httpClient := h)
  }

  /** `WithUserAgent`: an empty user agent keeps the current one. */
  function ApplyUserAgent(c: Config, userAgent: string): (r: Config)
    ensures userAgent != "" ==> r == c.(userAgent := userAgent)
    ensures userAgent == "" ==> r == c
  {
    if userAgent != "" then c.(userAgent := userAgent) else c
  }

  /** `WithToken` (and `SetToken`): the empty token clears the stored one, a
      token with a control character is ignored, anything else is stored. */
  function ApplyToken(c: Config, token: string): (r: Config)
    ensures r == c.(token := r.token)
    ensures token == "" ==> r.token == ""
    ensures token != "" && !IsValidToken(token) ==> r == c
    ensures IsValidToken(token) ==> r.token == token
    ensures r.token == "" || r.token == token || r.token == c.token
  {
    if token != "" && !IsValidToken(token) then c else c.(token := token)
  }

  /** `WithRequestHook`: always stored; nil clears the hook. */
  function ApplyRequestHook(c: Config, hook: Hook): (r: Config)
    ensures r == c.(requestHook := hook)
  {
    c.(requestHook := hook)
  }

  /** `WithResponseHook`: always stored; nil clears the hook. */
  function ApplyResponseHook(c: Config, hook: Hook): (r: Config)
    ensures r == c.(responseHook := hook)
  {
    c.(responseHook := hook)
  }

  /** Running one option against the configuration. */
  function Apply(c: Config, o: ClientOption): (r: Config)
    ensures r.baseUrl == c.baseUrl
    ensures forall f :: Some(f) != FieldOf(o) ==> Get(r, f) == Get(c, f)
    ensures WellFormed(c) ==> WellFormed(r)
  {
    match o
    case WithTimeout(d) => ApplyTimeout(c, d)
    case WithStreamTimeout(d) => ApplyStreamTimeout(c, d)
    case WithRetries(n) => ApplyRetries(c, n)
    case WithHttpClient(client) => ApplyHttpClient(c, client)
    case WithUserAgent(userAgent) => ApplyUserAgent(c, userAgent)
    case WithToken(token) => ApplyToken(c, token)
    case WithRequestHook(hook) => ApplyRequestHook(c, hook)
    case WithResponseHook(hook) => ApplyResponseHook(c, hook)
  }

  /** Running the options in order, first to last, as `NewClient` does. */
  function ApplyAll(c: Config, opts: seq<ClientOption>): (r: Config)
    ensures r.baseUrl == c.baseUrl
    ensures WellFormed(c) ==> WellFormed(r)
    decreases |opts|
  {
    if |opts| == 0 then c else ApplyAll(Apply(c, opts[0]), opts[1..])
  }

  /** The settable fields of the configuration, to speak of "the field an
      option touches". */
  datatype Field =
    | TimeoutField | StreamTimeoutField | HttpClientField | UserAgentField
    | TokenField | RequestHookField | ResponseHookField

  datatype FieldValue =
    | DurationValue(d: int)
    | TextValue(s: string)
    | ClientValue(client: HttpClient)
    | HookValue(hook: Hook)

  function Get(c: Config, f: Field): FieldValue {
    match f
    case TimeoutField => DurationValue(c.timeout)
    case StreamTimeoutField => DurationValue(c.streamTimeout)
    case HttpClientField => ClientValue(c.httpClient)
    case UserAgentField => TextValue(c.userAgent)
    case TokenField => TextValue(c.token)
    case RequestHookField => HookValue(c.requestHook)
    case ResponseHookField => HookValue(c.responseHook)
  }

  /** The one field an option may write; `WithRetries` writes none. */
  function FieldOf(o: ClientOption): Option<Field> {
    match o
    case WithTimeout(_) => Some(TimeoutField)
    case WithStreamTimeout(_) => Some(StreamTimeoutField)
    case WithRetries(_) => None
    case WithHttpClient(_) => Some(HttpClientField)
    case WithUserAgent(_) => Some(UserAgentField)
    case WithToken(_) => Some(TokenField)
    case WithRequestHook(_) => Some(RequestHookField)
    case WithResponseHook(_) => Some(ResponseHookField)
  }

  /** The options whose argument the source accepts, so that they write
      their field; all others are ignored by their own rule. */
  predicate Takes(o: ClientOption) {
    match o
    case WithTimeout(_) => true
    case WithStreamTimeout(d) => d > 0
    case WithRetries(_) => false
    case WithHttpClient(client) => client.Some?
    case WithUserAgent(userAgent) => userAgent != ""
    case WithToken(token) => token == "" || IsValidToken(token)
    case WithRequestHook(_) => true
    case WithResponseHook(_) => true
  }

  /** Every option is either taken, and then sets its field to a value that
      depends on the option alone, or ignored, and then changes nothing. */
  lemma TakenOrIgnored(c: Config, c': Config, o: ClientOption)
    ensures Takes(o) ==> FieldOf(o).Some? && Get(Apply(c, o), FieldOf(o).value) == Get(Apply(c', o), FieldOf(o).value)
    ensures !Takes(o) ==> Apply(c, o) == c
  {
  }

  /** Applying a list in two parts is applying it whole. */
  lemma {:induction false} ApplyAllConcat(c: Config, first: seq<ClientOption>, second: seq<ClientOption>)
    ensures ApplyAll(c, first + second) == ApplyAll(ApplyAll(c, first), second)
    decreases |first|
  {
    if |first| == 0 {
      assert first + second == second;
    } else {
      assert (first + second)[1..] == first[1..] + second;
      ApplyAllConcat(Apply(c, first[0]), first[1..], second);
    }
  }

  /** Later options override earlier ones: when the last option is taken,
      its field ends up with the same value whatever came before it and
      whatever the starting configuration was. */
  lemma LastTakenOptionWins(c: Config, c': Config, earlier: seq<ClientOption>, o: ClientOption)
    requires Takes(o)
    ensures FieldOf(o).Some?
    ensures Get(ApplyAll(c, earlier + [o]), FieldOf(o).value) == Get(Apply(c', o), FieldOf(o).value)
  {
    ApplyAllConcat(c, earlier, [o]);
    TakenOrIgnored(ApplyAll(c, earlier), c', o);
  }

  /** A field no option in the list touches keeps its starting value. */
  lemma {:induction false} UntouchedFieldKept(c: Config, opts: seq<ClientOption>, f: Field)
    requires forall i :: 0 <= i < |opts| ==> FieldOf(opts[i]) != Some(f)
    ensures Get(ApplyAll(c, opts), f) == Get(c, f)
    decreases |opts|
  {
    if |opts| > 0 {
      UntouchedFieldKept(Apply(c, opts[0]), opts[1..], f);
    }
  }

  /** A later timeout option beats an earlier one, even a negative one. */
  lemma LaterTimeoutWinsExample(base: string)
    ensures ApplyAll(DefaultConfig(base), [WithTimeout(5 * Second), WithTimeout(-1)]).timeout == 0
  {
    var c := DefaultConfig(base);
    LastTakenOptionWins(c, c, [WithTimeout(5 * Second)], WithTimeout(-1));
    assert [WithTimeout(5 * Second)] + [WithTimeout(-1)] == [WithTimeout(5 * Second), WithTimeout(-1)];
  }

  /** An empty user agent keeps the default one. */
  lemma EmptyUserAgentExample(base: string)
    ensures ApplyAll(DefaultConfig(base), [WithUserAgent("")]).userAgent == "stromboli-go/0.1.0"
  {
    assert [WithUserAgent("")][1..] == [];
  }

  /** A token with a line break is rejected and the earlier token stays. */
  lemma RejectedTokenExample(base: string)
    ensures ApplyAll(DefaultConfig(base), [WithToken("abc"), WithToken("x\ny")]).token == "abc"
  {
    assert !IsValidToken("x\ny") by { assert "x\ny"[1] == '\n'; }
    assert IsValidToken("abc");
    var tokens := [WithToken("abc"), WithToken("x\ny")];
    assert tokens[1..] == [WithToken("x\ny")] && tokens[1..][1..] == [];
  }
}

=== FILE: stream.dfy ===
/** The Server-Sent-Events reader of stream.go: the line-oriented event
    parser (`readEvent`), the pull iterator around it (`Next`, `Event`,
    `Err`, `Close`) and the establishment decision of `Client.Stream`.

    The response body is a finite string of bytes followed either by a clean
    end of input or by a read error; reading it is a pure function that
    returns what remains. */
module EventStream {
  import opened Wrappers
  import opened GoStrings
  import opened Errors
  import Client

  /** The per-event byte ceiling: 10 MiB of raw lines. */
  const MaxEventSize: nat := 10485760
  /** How much of an error response body is quoted in the error message. */
  const MaxErrorBodySize: nat := 4096

  /** One SSE event: the `event:`, `data:` and `id:` fields. */
  datatype Event = Event(eventType: string, data: string, id: string)

  /** The unread part of a response body and what follows it: `None` for a
      clean end of input, `Some(text)` for a read error with that text. */
  datatype Body = Body(data: string, failure: Option<string>)

  /** What one `ReadString('\n')` gives: a complete line with its `\n`, or,
      when no `\n` is left, the unterminated fragment together with the end
      of input or the read error. */
  datatype LineRead =
    | Line(text: string, rest: Body)
    | EndOfInput(fragment: string, failure: Option<string>)

  /** How many bytes up to and including the first `\n`, if there is one. */
  function LineLength(s: string): (n: nat)
    ensures n <= |s|
  {
    if |s| == 0 then 0
    else if s[0] == '\n' then 1
    else
      var k := LineLength(s[1..]);
      if k == 0 then 0 else k + 1
  }

  /** `bufio.Reader.ReadString('\n')`. What it returns is characterised by
      `ReadStringSplitsAtFirstNewline` and `ReadStringEndsWithoutNewline`. */
  function ReadString(b: Body): (r: LineRead)
    ensures r.Line? ==> |r.rest.data| < |b.data| && r.rest.failure == b.failure
  {
    var n := LineLength(b.data);
    if n == 0 then EndOfInput(b.data, b.failure)
    else Line(b.data[..n], Body(b.data[n..], b.failure))
  }

  /** The unterminated text that remains once every complete line of `s`
      has been read: what follows the last `\n`. */
  function Fragment(s: string): (r: string)
    ensures |r| <= |s|
    decreases |s|
  {
    var n := LineLength(s);
    if n == 0 then s else Fragment(s[n..])
  }

  /** `Fragment` is a suffix without `\n`, and it is either all of `s` or
      preceded by a `\n`: exactly the text after the last `\n`. */
  lemma {:induction false} FragmentFollowsLastNewline(s: string)
    ensures '\n' !in Fragment(s)
    ensures s[|s| - |Fragment(s)|..] == Fragment(s)
    ensures |Fragment(s)| < |s| ==> s[|s| - |Fragment(s)| - 1] == '\n'
    decreases |s|
  {
    LineLengthIsIndexOf(s);
    var n := LineLength(s);
    if n > 0 {
      FragmentFollowsLastNewline(s[n..]);
      var f := Fragment(s[n..]);
      assert s[n..][|s[n..]| - |f|..] == s[|s| - |f|..];
      if |f| == |s[n..]| {
        assert s[|s| - |f| - 1] == s[n - 1];
      } else {
        assert s[|s| - |f| - 1] == s[n..][|s[n..]| - |f| - 1];
      }
    }
  }

  /** `LineLength` agrees with the first `\n` that `IndexOf` finds. */
  lemma {:induction false} LineLengthIsIndexOf(s: string)
    ensures IndexOf(s, '\n').None? <==> LineLength(s) == 0
    ensures IndexOf(s, '\n').Some? ==> LineLength(s) == IndexOf(s, '\n').value + 1
  {
    if |s| > 0 && s[0] != '\n' {
      LineLengthIsIndexOf(s[1..]);
    }
  }

  /** A line is everything up to and including the first `\n`. */
  lemma ReadStringSplitsAtFirstNewline(b: Body)
    requires ReadString(b).Line?
    ensures ReadString(b).text + ReadString(b).rest.data == b.data
    ensures HasSuffix(ReadString(b).text, "\n")
    ensures '\n' !in ReadString(b).text[..|ReadString(b).text| - 1]
  {
    LineLengthIsIndexOf(b.data);
    var i := IndexOf(b.data, '\n').value;
    assert b.data[..i + 1] + b.data[i + 1..] == b.data;
    assert b.data[..i + 1][..i] == b.data[..i];
  }

  /** Input ends (cleanly or not) exactly when no `\n` is left, and the
      fragment is then all the remaining data. */
  lemma ReadStringEndsWithoutNewline(b: Body)
    ensures ReadString(b).EndOfInput? <==> '\n' !in b.data
    ensures ReadString(b).EndOfInput? ==> ReadString(b).fragment == b.data && ReadString(b).failure == b.failure
  {
    LineLengthIsIndexOf(b.data);
  }

  /** `rest` is no longer than `b` and ends the same way. */
  predicate Within(b: Body, rest: Body) {
    |rest.data| <= |b.data| && rest.failure == b.failure
  }

  /** What the reader remains with once input has ended. */
  function Drained(b: Body): (r: Body)
    ensures Within(b, r) && r.data == ""
  {
    Body("", b.failure)
  }

  /** A line with its `\n` removed and then one `\r`, if present. */
  function TrimLine(text: string): (r: string)
    ensures |r| <= |text|
  {
    TrimSuffix(TrimSuffix(text, "\n"), "\r")
  }

  /** The value of a field line: the field name cut off, then the one space
      after it, if there is one. `line` must start with `name`. */
  function FieldValue(line: string, name: string): (v: string)
    requires HasPrefix(line, name)
  {
    var (withSpace, found) := CutPrefix(line, name + " ");
    if found then withSpace else CutPrefix(line, name).0
  }

  /** The event under construction: its fields so far, whether a `data:`
      line has been seen, and the raw bytes counted against the ceiling. */
  datatype Pending = Pending(event: Event, hasData: bool, total: nat)

  const Fresh: Pending := Pending(Event("", "", ""), false, 0)

  /** One non-empty trimmed line applied to the event under construction:
      `data:` appends (joined by `\n` after the first), `event:` and `id:`
      overwrite, every other line (`retry:`, comments, unknown fields) is
      ignored. The byte count is not touched here. */
  function ApplyField(p: Pending, line: string): (r: Pending)
    ensures r.total == p.total
    ensures p.hasData ==> r.hasData
  {
    if HasPrefix(line, "data:") then
      var v := FieldValue(line, "data:");
      p.(event := p.event.(data := if p.hasData then p.event.data + "\n" + v else v), hasData := true)
    else if HasPrefix(line, "event:") then
      p.(event := p.event.(eventType := FieldValue(line, "event:")))
    else if HasPrefix(line, "id:") then
      p.(event := p.event.(id := FieldValue(line, "id:")))
    else p
  }

  /** A `data:` line appends its value, after a `\n` once data was seen. */
  lemma ApplyDataLine(p: Pending, v: string)
    ensures ApplyField(p, "data: " + v)
            == p.(event := p.event.(data := if p.hasData then p.event.data + "\n" + v else v), hasData := true)
  {
    var l := "data: " + v;
    assert l[..5] == "data:" && l[..6] == "data: ";
    CutPrefixLeavesSuffix(l, "data: ");
    assert CutPrefix(l, "data: ").0 == ("data: " + CutPrefix(l, "data: ").0)[6..];
  }

  /** An `event:` line sets the type and nothing else. */
  lemma ApplyEventLine(p: Pending, t: string)
    ensures ApplyField(p, "event: " + t) == p.(event := p.event.(eventType := t))
  {
    var l := "event: " + t;
    assert l[0] == 'e' && l[..6] == "event:" && l[..7] == "event: ";
    CutPrefixLeavesSuffix(l, "event: ");
    assert CutPrefix(l, "event: ").0 == ("event: " + CutPrefix(l, "event: ").0)[7..];
  }

  /** An `id:` line sets the id and nothing else. */
  lemma ApplyIdLine(p: Pending, i: string)
    ensures ApplyField(p, "id: " + i) == p.(event := p.event.(id := i))
  {
    var l := "id: " + i;
    assert l[0] == 'i' && l[..3] == "id:" && l[..4] == "id: ";
    CutPrefixLeavesSuffix(l, "id: ");
    assert CutPrefix(l, "id: ").0 == ("id: " + CutPrefix(l, "id: ").0)[4..];
  }

  /** Any other line (`retry:`, a `:` comment, an unknown field) changes
      nothing. */
  lemma ApplyOtherLine(p: Pending, line: string)
    requires !HasPrefix(line, "data:") && !HasPrefix(line, "event:") && !HasPrefix(line, "id:")
    ensures ApplyField(p, line) == p
  {
  }

  /** Why a stream stopped with an error. */
  datatype StreamFailure = ReadFailed(text: string) | EventTooLarge

  /** The text `Err` prints: a read error's own text, or the size error
      `readEvent` builds with `%d` of the ceiling. */
  function FailureText(e: StreamFailure): string {
    match e
    case ReadFailed(text) => text
    case EventTooLarge => "event exceeds maximum size of " + NatToDecimal(MaxEventSize) + " bytes"
  }


  /** The result of reading one event. `Delimited` and `Salvaged` are the
      two successful returns of `readEvent` (after a blank line, and at the
      end of input with data pending); `Exhausted` is the bare end of input. */
  datatype Outcome =
    | Delimited(event: Event)
    | Salvaged(event: Event)
    | Exhausted
    | Failed(error: StreamFailure)

  datatype Step = Step(outcome: Outcome, rest: Body)

  /** What one complete line does to the event under construction. */
  datatype LineEffect = TooLarge | EndsEvent | Continues(next: Pending)

  /** One complete line, with its line ending: it is counted before anything
      else, and a count above the ceiling is an error. Trimmed, a blank line
      ends the event if data was seen and is skipped otherwise, WITHOUT
      resetting the type, the id or the count; any other line is a field. */
  function LineEffectOf(p: Pending, text: string): (e: LineEffect)
    ensures e.TooLarge? <==> p.total + |text| > MaxEventSize
    ensures e.EndsEvent? <==> p.total + |text| <= MaxEventSize && TrimLine(text) == "" && p.hasData
    ensures e.Continues? ==> e.next.total == p.total + |text| && (p.hasData ==> e.next.hasData)
  {
    var total := p.total + |text|;
    if total > MaxEventSize then TooLarge
    else
      var line := TrimLine(text);
      if line == "" then
        if p.hasData then EndsEvent else Continues(p.(total := total))
      else Continues(ApplyField(p.(total := total), line))
  }

  /** `readEvent`, continued from the event under construction `p`: complete
      lines are taken one at a time (`LineEffectOf`). At the end of input
      pending data is returned and the unterminated fragment is dropped; any
      other read error is returned even when data is pending. */
  function ReadEventFrom(b: Body, p: Pending): (r: Step)
    ensures Within(b, r.rest)
    ensures r.outcome.Exhausted? ==> !p.hasData && b.failure.None? && r.rest == Drained(b)
    ensures r.outcome.Salvaged? ==> b.failure.None? && r.rest == Drained(b)
    ensures r.outcome.Failed? && r.outcome.error.ReadFailed? ==> b.failure == Some(r.outcome.error.text)
    ensures r.outcome.Delimited? ==> p.total + (|b.data| - |r.rest.data|) <= MaxEventSize
    ensures (r.outcome.Delimited? || r.outcome.Salvaged?) && !p.hasData ==> |r.rest.data| < |b.data|
    ensures p.hasData ==> !r.outcome.Exhausted?
    ensures r.outcome == Failed(EventTooLarge) ==> p.total + (|b.data| - |r.rest.data|) > MaxEventSize
    ensures r.outcome.Salvaged? && p.total <= MaxEventSize ==>
              p.total + (|b.data| - |Fragment(b.data)|) <= MaxEventSize
    decreases |b.data|
  {
    match ReadString(b)
    case EndOfInput(_, failure) =>
      if failure.None? && p.hasData then Step(Salvaged(p.event), Drained(b))
      else if failure.None? then Step(Exhausted, Drained(b))
      else Step(Failed(ReadFailed(failure.value)), Drained(b))
    case Line(text, rest) =>
      match LineEffectOf(p, text)
      case TooLarge => Step(Failed(EventTooLarge), rest)
      case EndsEvent => Step(Delimited(p.event), rest)
      case Continues(next) =>
        ReadEventFrom(rest, next)
  }

  /** `readEvent`: one event from a fresh accumulator. */
  function ReadEvent(b: Body): (r: Step)
    ensures Within(b, r.rest)
    ensures r.outcome.Exhausted? || r.outcome.Salvaged? ==> b.failure.None? && r.rest == Drained(b)
    ensures r.outcome.Delimited? ==> |b.data| - |r.rest.data| <= MaxEventSize
    ensures r.outcome.Delimited? || r.outcome.Salvaged? ==> |r.rest.data| < |b.data|
    ensures r.outcome == Failed(EventTooLarge) ==> |b.data| - |r.rest.data| > MaxEventSize
    ensures r.outcome.Salvaged? ==> |b.data| - |Fragment(b.data)| <= MaxEventSize
  {
    ReadEventFrom(b, Fresh)
  }

  // -----------------------------------------------------------------------
  // The pull iterator

  /** A `Stream`: the unread body, the current event (nil until the first
      successful `Next`), the sticky error, the closed flag, and how many
      times the body has been released. */
  datatype Stream = Stream(body: Body, current: Option<Event>, err: Option<StreamFailure>, closed: bool, releases: nat)

  /** A freshly established stream over a response body. */
  function Open(body: Body): (s: Stream)
    ensures s.body == body && s.current.None? && s.err.None? && !s.closed && s.releases == 0
  {
    Stream(body, None, None, false, 0)
  }

  /** `Next`: false at once when closed or errored; otherwise read one
      event. An event becomes current (true); the end of input answers false
      and leaves the error nil; any other failure is latched (false). */
  function Next(s: Stream): (r: (Stream, bool))
    ensures s.closed || s.err.Some? ==> r == (s, false)
    ensures r.0.closed == s.closed && r.0.releases == s.releases
    ensures r.1 ==> r.0.current.Some? && r.0.err.None? && |r.0.body.data| < |s.body.data|
    ensures !r.1 ==> r.0.current == s.current
    ensures s.err.Some? ==> r.0.err == s.err
    ensures !s.closed && s.err.None? && r.0.err.Some? ==> !r.1
    ensures Within(s.body, r.0.body)
    ensures !s.closed && s.err.None? && (ReadEvent(s.body).outcome.Delimited? || ReadEvent(s.body).outcome.Salvaged?) ==>
              r == (s.(body := ReadEvent(s.body).rest, current := Some(ReadEvent(s.body).outcome.event)), true)
    ensures !s.closed && s.err.None? && ReadEvent(s.body).outcome.Exhausted? ==>
              !r.1 && r.0.err.None? && r.0.body == Drained(s.body)
    ensures !s.closed && s.err.None? && ReadEvent(s.body).outcome.Failed? ==>
              !r.1 && r.0.err == Some(ReadEvent(s.body).outcome.error)
  {
    if s.closed || s.err.Some? then (s, false)
    else
      var step := ReadEvent(s.body);
      match step.outcome
      case Delimited(e) => (s.(body := step.rest, current := Some(e)), true)
      case Salvaged(e) => (s.(body := step.rest, current := Some(e)), true)
      case Exhausted => (s.(body := step.rest), false)
      case Failed(e) => (s.(body := step.rest, err := Some(e)), false)
  }

  /** `Event`: the current event, nil before the first successful `Next`. */
  function CurrentEvent(s: Stream): Option<Event> {
    s.current
  }

  /** `Err`: the sticky error, nil while active or after a clean end. */
  function StreamErr(s: Stream): Option<StreamFailure> {
    s.err
  }

  /** `Close`: marks the stream closed and releases the body on the first
      call only, returning what releasing it returned (`bodyClose`); every
      later call returns nil and changes nothing. */
  function Close(s: Stream, bodyClose: Option<string>): (r: (Stream, Option<string>))
    ensures r.0.closed
    ensures s.closed ==> r == (s, None)
    ensures !s.closed ==> r.0 == s.(closed := true, releases := s.releases + 1) && r.1 == bodyClose
  {
    if s.closed then (s, None) else (s.(closed := true, releases := s.releases + 1), bodyClose)
  }

  /** The consumer loop `for s.Next() { collect s.Event() }`: the events in
      order and the state the loop leaves the stream in. */
  function Collect(s: Stream): (r: (seq<Event>, Stream))
    ensures r.1.closed == s.closed && r.1.releases == s.releases
    ensures s.closed || s.err.Some? ==> r == ([], s)
    ensures s.err.Some? ==> r.1.err == s.err
    decreases |s.body.data|
  {
    var (next, ok) := Next(s);
    if ok then
      var (more, last) := Collect(next);
      ([next.current.value] + more, last)
    else ([], next)
  }

  // -----------------------------------------------------------------------
  // Establishing a stream

  /** The query string of the stream request. */
  datatype StreamRequest = StreamRequest(prompt: string, workdir: string, sessionId: string)

  /** The response to the stream request: status, Content-Type header and
      body. */
  datatype HttpResponse = HttpResponse(status: int, contentType: string, body: Body)

  /** What the HTTP round trip gave: a transport error or a response. */
  datatype Exchange = TransportFailed(err: Client.TransportError) | Responded(response: HttpResponse)

  const EventStreamType: string := "text/event-stream"
  const StreamErrorPrefix: string := "stream request failed: "

  /** The error body quoted in a STREAM_ERROR: at most the first 4096 bytes
      of what could be read (a read error ends the quote early). */
  function ErrorBodyExcerpt(b: Body): (r: string)
    ensures |r| <= MaxErrorBodySize && HasPrefix(b.data, r)
    ensures |b.data| <= MaxErrorBodySize ==> r == b.data
  {
    if |b.data| <= MaxErrorBodySize then b.data else b.data[..MaxErrorBodySize]
  }

  /** The decision `Client.Stream` takes around the HTTP round trip: refuse a
      nil request or an empty prompt with BAD_REQUEST / 400; classify a
      transport error; turn a non-200 status into STREAM_ERROR with that
      status and a bounded quote of the body; turn a 200 whose Content-Type
      does not start with "text/event-stream" into INVALID_RESPONSE; only
      then hand out a fresh stream over the body. */
  function OpenStream(req: Option<StreamRequest>, exchange: Exchange): (r: Result<Stream, Error>)
    ensures r.Ok? <==> req.Some? && req.value.prompt != "" && exchange.Responded?
                        && exchange.response.status == 200
                        && HasPrefix(exchange.response.contentType, EventStreamType)
    ensures r.Ok? ==> r.value == Open(exchange.response.body)
    ensures req.None? ==> r == Err(Error(BadRequest, "request is required", 400, None))
    ensures req.Some? && req.value.prompt == "" ==> r == Err(Error(BadRequest, "prompt is required", 400, None))
    ensures req.Some? && req.value.prompt != "" && exchange.TransportFailed? ==>
              r == Err(Client.HandleError(Some(exchange.err), "failed to connect to stream").value)
    ensures req.Some? && req.value.prompt != "" && exchange.Responded? && exchange.response.status != 200 ==>
              && r.Err? && r.error.code == StreamError && r.error.status == exchange.response.status
              && HasPrefix(r.error.message, StreamErrorPrefix)
              && |r.error.message| <= |StreamErrorPrefix| + MaxErrorBodySize
              && HasPrefix(exchange.response.body.data, r.error.message[|StreamErrorPrefix|..])
              && r.error.message == StreamErrorPrefix + ErrorBodyExcerpt(exchange.response.body)
              && r.error.cause.None?
    ensures req.Some? && req.value.prompt != "" && exchange.Responded? && exchange.response.status == 200
            && !HasPrefix(exchange.response.contentType, EventStreamType) ==>
              r == Err(Error(InvalidResponse, "unexpected content type: " + exchange.response.contentType, 200, None))
  {
    if req.None? then Err(Error(BadRequest, "request is required", 400, None))
    else if req.value.prompt == "" then Err(Error(BadRequest, "prompt is required", 400, None))
    else
      match exchange
      case TransportFailed(err) => Err(Client.HandleError(Some(err), "failed to connect to stream").value)
      case Responded(response) =>
        if response.status != 200 then
          var excerpt := ErrorBodyExcerpt(response.body);
          assert (StreamErrorPrefix + excerpt)[|StreamErrorPrefix|..] == excerpt;
          Err(Error(StreamError, StreamErrorPrefix + excerpt, response.status, None))
        else if !HasPrefix(response.contentType, EventStreamType) then
          Err(Error(InvalidResponse, "unexpected content type: " + response.contentType, response.status, None))
        else Ok(Open(response.body))
  }

  /** A base query key the stream request leaves as it was. */
  predicate Untouched(k: string, req: StreamRequest) {
    k != "prompt" && (k != "workdir" || req.workdir == "") && (k != "session_id" || req.sessionId == "")
  }

  /** The query parameters of the stream request, set over those the base
      URL already has (`url.Values`: every key holds a list of values): the
      prompt always, the working directory and the session only when
      non-empty. Each `Set` replaces every earlier value of its key by the
      one given; every other key keeps all its values. */
  function StreamQuery(base: map<string, seq<string>>, req: StreamRequest): (q: map<string, seq<string>>)
    ensures "prompt" in q && q["prompt"] == [req.prompt]
    ensures req.workdir != "" ==> "workdir" in q && q["workdir"] == [req.workdir]
    ensures req.sessionId != "" ==> "session_id" in q && q["session_id"] == [req.sessionId]
    ensures q.Keys == base.Keys + {"prompt"} + (if req.workdir != "" then {"workdir"} else {})
                      + (if req.sessionId != "" then {"session_id"} else {})
    ensures forall k :: k in base && Untouched(k, req) ==> q[k] == base[k]
  {
    var q := base["prompt" := [req.prompt]];
    var q := if req.workdir != "" then q["workdir" := [req.workdir]] else q;
    if req.sessionId != "" then q["session_id" := [req.sessionId]] else q
  }

  /** The request headers: SSE accept and caching headers, the user agent,
      and a bearer Authorization header exactly when a token is set. */
  function StreamHeaders(userAgent: string, token: string): (h: map<string, string>)
    ensures "Accept" in h && "Cache-Control" in h && "Connection" in h && "User-Agent" in h
    ensures h["Accept"] == EventStreamType && h["Cache-Control"] == "no-cache" && h["Connection"] == "keep-alive"
    ensures h["User-Agent"] == userAgent
    ensures "Authorization" in h <==> token != ""
    ensures token != "" ==> h["Authorization"] == "Bearer " + token
  {
    var h := map["Accept" := EventStreamType, "Cache-Control" := "no-cache",
                 "Connection" := "keep-alive", "User-Agent" := userAgent];
    if token != "" then h["Authorization" := "Bearer " + token] else h
  }
}

=== FILE: stream_properties.dfy ===
/** Properties of the SSE reader: how it reads lines and folds field lines
    into an event, its three documented quirks, the size ceiling, and a
    round trip against a reference encoder of well-formed events. */
module EventStreamProperties {
  import opened Wrappers
  import opened GoStrings
  import opened Errors
  import opened EventStream

  // -----------------------------------------------------------------------
  // Lines

  /** The first `c` of `a + [c] + m` is right after `a` when `a` has none. */
  lemma {:induction false} IndexOfAfter(a: string, c: char, m: string)
    requires c !in a
    ensures IndexOf(a + [c] + m, c) == Some(|a|)
    decreases |a|
  {
    if |a| > 0 {
      assert (a + [c] + m)[1..] == a[1..] + [c] + m;
      IndexOfAfter(a[1..], c, m);
    }
  }

  /** Reading a line stops at its `\n` and leaves exactly what follows. */
  lemma ReadStringOfLine(a: string, m: string, f: Option<string>)
    requires '\n' !in a
    ensures ReadString(Body(a + "\n" + m, f)) == Line(a + "\n", Body(m, f))
  {
    var d := a + "\n" + m;
    IndexOfAfter(a, '\n', m);
    LineLengthIsIndexOf(d);
    assert d[..|a| + 1] == a + "\n";
    assert d[|a| + 1..] == m;
  }

  /** One step of the reader over a line that does not end the event. */
  lemma ContinueStep(b: Body, p: Pending, text: string, rest: Body, next: Pending)
    requires ReadString(b) == Line(text, rest)
    requires LineEffectOf(p, text) == Continues(next)
    ensures ReadEventFrom(b, p) == ReadEventFrom(rest, next)
  {
  }

  /** One step of the reader over a line that ends the event. */
  lemma EndStep(b: Body, p: Pending, text: string, rest: Body)
    requires ReadString(b) == Line(text, rest)
    requires LineEffectOf(p, text).EndsEvent?
    ensures ReadEventFrom(b, p) == Step(Delimited(p.event), rest)
  {
  }

  /** One step of the reader over a line that breaks the ceiling. */
  lemma TooLargeStep(b: Body, p: Pending, text: string, rest: Body)
    requires ReadString(b) == Line(text, rest)
    requires p.total + |text| > MaxEventSize
    ensures ReadEventFrom(b, p) == Step(Failed(EventTooLarge), rest)
  {
  }

  /** A field line within the ceiling is applied to the event. */
  lemma FieldLineEffect(p: Pending, l: string)
    requires !HasSuffix(l, "\r") && l != ""
    requires p.total + |l| + 1 <= MaxEventSize
    ensures LineEffectOf(p, l + "\n") == Continues(ApplyField(p.(total := p.total + |l| + 1), l))
  {
    TrimPlainLine(l);
  }

  /** A blank line within the ceiling ends the event or is skipped. */
  lemma BlankLineEffect(p: Pending)
    requires p.total + 1 <= MaxEventSize
    ensures LineEffectOf(p, "\n") == if p.hasData then EndsEvent else Continues(p.(total := p.total + 1))
  {
    assert TrimSuffix("\n", "\n") == "";
    assert TrimLine("\n") == "";
  }

  /** A blank line is read as such. */
  lemma ReadBlankLine(m: string, f: Option<string>)
    ensures ReadString(Body("\n" + m, f)) == Line("\n", Body(m, f))
  {
    ReadStringOfLine("", m, f);
    assert "" + "\n" + m == "\n" + m;
  }

  /** The body still ends with what `b` ended with: `rest` is what is left
      of it after a prefix was read. */
  predicate ReadFrom(b: Body, rest: Body) {
    && |rest.data| <= |b.data|
    && b.data[|b.data| - |rest.data|..] == rest.data
    && rest.failure == b.failure
  }

  lemma ReadFromTransitive(a: Body, b: Body, c: Body)
    requires ReadFrom(a, b) && ReadFrom(b, c)
    ensures ReadFrom(a, c)
  {
    assert a.data[|a.data| - |c.data|..] == a.data[|a.data| - |b.data|..][|b.data| - |c.data|..];
  }

  lemma ReadStringConsumesPrefix(b: Body)
    ensures ReadString(b).Line? ==> ReadFrom(b, ReadString(b).rest)
  {
    var r := ReadString(b);
    if r.Line? {
      ReadStringSplitsAtFirstNewline(b);
      assert b.data == r.text + r.rest.data;
      assert b.data[|r.text|..] == r.rest.data;
    }
  }

  /** Reading an event consumes a prefix of the body: what is left is
      exactly the rest of it, with the same ending. */
  lemma {:induction false} ReadEventConsumesPrefix(b: Body, p: Pending)
    ensures ReadFrom(b, ReadEventFrom(b, p).rest)
    decreases |b.data|
  {
    ReadStringConsumesPrefix(b);
    match ReadString(b)
    case EndOfInput(_, _) =>
      assert b.data[|b.data|..] == "";
    case Line(text, rest) =>
      match LineEffectOf(p, text)
      case TooLarge =>
      case EndsEvent =>
      case Continues(next) =>
        ReadEventConsumesPrefix(rest, next);
        ReadFromTransitive(b, rest, ReadEventFrom(rest, next).rest);
  }

  /** A line that does not end in `\r` loses only its `\n`. */
  lemma TrimPlainLine(l: string)
    requires !HasSuffix(l, "\r")
    ensures TrimLine(l + "\n") == l
  {
    var once := TrimSuffix(l + "\n", "\n");
    assert (l + "\n")[|l + "\n"| - 1..] == "\n";
    TrimSuffixLeavesPrefix(l + "\n", "\n");
    assert once + "\n" == l + "\n";
    assert once == (once + "\n")[..|l|];
  }

  /** Quirk: only ONE carriage return is trimmed, so a line ending in two
      keeps one of them. */
  lemma OneCarriageReturnTrimmed(l: string)
    ensures TrimLine(l + "\r\r\n") == l + "\r"
  {
    var full := l + "\r\r\n";
    assert full[|full| - 1..] == "\n";
    var once := TrimSuffix(full, "\n");
    TrimSuffixLeavesPrefix(full, "\n");
    assert once == (once + "\n")[..|l| + 2];
    assert once == l + "\r\r";
    assert once[|once| - 1..] == "\r";
    var twice := TrimSuffix(once, "\r");
    TrimSuffixLeavesPrefix(once, "\r");
    assert twice == (twice + "\r")[..|l| + 1];
  }

  /** What trimming removes, by how the line ends: `\r\n`, a bare `\n`,
      a bare `\r`, or neither. */
  lemma TrimLineRemovesLineEnding(text: string)
    ensures HasSuffix(text, "\r\n") ==> TrimLine(text) + "\r\n" == text
    ensures HasSuffix(text, "\n") && !HasSuffix(text, "\r\n") ==> TrimLine(text) + "\n" == text
    ensures !HasSuffix(text, "\n") && HasSuffix(text, "\r") ==> TrimLine(text) + "\r" == text
    ensures !HasSuffix(text, "\n") && !HasSuffix(text, "\r") ==> TrimLine(text) == text
  {
    var a := TrimSuffix(text, "\n");
    var r := TrimSuffix(a, "\r");
    if HasSuffix(text, "\n") {
      TrimSuffixLeavesPrefix(text, "\n");
      assert |a| >= 1 ==> text[|text| - 2..] == a[|a| - 1..] + "\n";
      if HasSuffix(a, "\r") {
        TrimSuffixLeavesPrefix(a, "\r");
        assert r + "\r\n" == r + "\r" + "\n";
      }
    } else if HasSuffix(text, "\r") {
      TrimSuffixLeavesPrefix(text, "\r");
    }
  }

  /** A field value loses the field name and the one space after it; a
      second space stays part of the value. */
  lemma FieldValueStripsOneSpace(name: string, v: string)
    ensures HasPrefix(name + " " + v, name)
    ensures FieldValue(name + " " + v, name) == v
  {
    var s := name + " " + v;
    assert s[..|name|] == name;
    assert s[..|name| + 1] == name + " ";
    CutPrefixLeavesSuffix(s, name + " ");
    var w := CutPrefix(s, name + " ").0;
    assert (name + " " + w)[|name| + 1..] == w;
    assert s[|name| + 1..] == v;
  }

  /** Without a space after the field name, only the name is cut. */
  lemma FieldValueWithoutSpace(name: string, v: string)
    requires |v| == 0 || v[0] != ' '
    ensures HasPrefix(name + v, name)
    ensures FieldValue(name + v, name) == v
  {
    var t := name + v;
    assert t[..|name|] == name;
    assert !HasPrefix(t, name + " ") by {
      if |v| > 0 {
        assert t[..|name| + 1][|name|] == v[0];
        assert (name + " ")[|name|] == ' ';
      }
    }
    CutPrefixLeavesSuffix(t, name);
    var u := CutPrefix(t, name).0;
    assert (name + u)[|name|..] == u;
    assert t[|name|..] == v;
  }

  /** Without the space: `data:X` reads as `data: X` when X does not
      itself start with a space. */
  lemma CompactDataLine(p: Pending, v: string)
    requires |v| == 0 || v[0] != ' '
    ensures ApplyField(p, "data:" + v) == ApplyField(p, "data: " + v)
  {
    FieldValueWithoutSpace("data:", v);
    FieldValueStripsOneSpace("data:", v);
    assert "data:" + " " + v == "data: " + v;
  }

  /** Without the space: `event:X` reads as `event: X`. */
  lemma CompactEventLine(p: Pending, t: string)
    requires |t| == 0 || t[0] != ' '
    ensures ApplyField(p, "event:" + t) == ApplyField(p, "event: " + t)
  {
    var l := "event:" + t;
    FieldValueWithoutSpace("event:", t);
    FieldValueStripsOneSpace("event:", t);
    assert "event:" + " " + t == "event: " + t;
    assert !HasPrefix(l, "data:") by { assert l[0] == 'e'; }
    assert !HasPrefix("event: " + t, "data:") by { assert ("event: " + t)[0] == 'e'; }
  }

  /** Without the space: `id:X` reads as `id: X`. */
  lemma CompactIdLine(p: Pending, i: string)
    requires |i| == 0 || i[0] != ' '
    ensures ApplyField(p, "id:" + i) == ApplyField(p, "id: " + i)
  {
    var l := "id:" + i;
    FieldValueWithoutSpace("id:", i);
    FieldValueStripsOneSpace("id:", i);
    assert "id:" + " " + i == "id: " + i;
    assert !HasPrefix(l, "data:") && !HasPrefix(l, "event:") by { assert l[0] == 'i'; }
    assert !HasPrefix("id: " + i, "data:") && !HasPrefix("id: " + i, "event:") by { assert ("id: " + i)[0] == 'i'; }
  }

  /** Of two `event:` lines the later one wins, whatever came before. */
  lemma LastEventLineWins(p: Pending, t1: string, t2: string)
    ensures ApplyField(ApplyField(p, "event: " + t1), "event: " + t2) == ApplyField(p, "event: " + t2)
  {
    ApplyEventLine(p, t1);
    ApplyEventLine(ApplyField(p, "event: " + t1), t2);
    ApplyEventLine(p, t2);
  }

  /** `retry:` lines and `:` comments are ignored. */
  lemma RetryAndCommentsIgnored(p: Pending, v: string)
    ensures ApplyField(p, "retry:" + v) == p
    ensures ApplyField(p, ":" + v) == p
  {
    var r, c := "retry:" + v, ":" + v;
    assert r[0] == 'r' && c[0] == ':';
    assert !HasPrefix(r, "data:") && !HasPrefix(r, "event:") && !HasPrefix(r, "id:");
    assert !HasPrefix(c, "data:") && !HasPrefix(c, "event:") && !HasPrefix(c, "id:");
    ApplyOtherLine(p, r);
    ApplyOtherLine(p, c);
  }

  // -----------------------------------------------------------------------
  // Folding field lines

  /** A line the reader treats as a field line: complete, not blank after
      trimming, without a trailing carriage return to be trimmed. */
  predicate FieldLine(l: string) {
    l != "" && '\n' !in l && !HasSuffix(l, "\r")
  }

  predicate FieldLines(ls: seq<string>) {
    forall i :: 0 <= i < |ls| ==> FieldLine(ls[i])
  }

  /** The lines, each followed by `\n`. */
  function Terminated(ls: seq<string>): string {
    if |ls| == 0 then "" else ls[0] + "\n" + Terminated(ls[1..])
  }

  /** The event under construction after reading the lines, counted as the
      reader counts them. */
  function Absorb(p: Pending, ls: seq<string>): Pending
    decreases |ls|
  {
    if |ls| == 0 then p else Absorb(ApplyField(p.(total := p.total + |ls[0]| + 1), ls[0]), ls[1..])
  }

  /** Absorbing counts every line with its `\n`, and never forgets that
      data was seen. */
  lemma {:induction false} AbsorbCounts(p: Pending, ls: seq<string>)
    ensures Absorb(p, ls).total == p.total + |Terminated(ls)|
    ensures p.hasData ==> Absorb(p, ls).hasData
    decreases |ls|
  {
    if |ls| > 0 {
      AbsorbCounts(ApplyField(p.(total := p.total + |ls[0]| + 1), ls[0]), ls[1..]);
    }
  }

  lemma TerminatedCons(ls: seq<string>, m: string)
    requires |ls| > 0
    ensures Terminated(ls) + m == ls[0] + "\n" + (Terminated(ls[1..]) + m)
  {
  }

  /** One field line within the ceiling is applied, and reading goes on
      right after it. */
  lemma ReadFieldLine(l: string, rest: string, f: Option<string>, p: Pending, next: Pending)
    requires FieldLine(l) && p.total + |l| + 1 <= MaxEventSize
    requires next == ApplyField(p.(total := p.total + |l| + 1), l)
    ensures ReadEventFrom(Body(l + "\n" + rest, f), p) == ReadEventFrom(Body(rest, f), next)
  {
    ReadStringOfLine(l, rest, f);
    FieldLineEffect(p, l);
    ContinueStep(Body(l + "\n" + rest, f), p, l + "\n", Body(rest, f), next);
  }

  lemma ReadFieldLineInto(l: string, b: Body, b1: Body, p: Pending, next: Pending)
    requires FieldLine(l) && p.total + |l| + 1 <= MaxEventSize
    requires b.data == l + "\n" + b1.data && b.failure == b1.failure
    requires next == ApplyField(p.(total := p.total + |l| + 1), l)
    ensures ReadEventFrom(b, p) == ReadEventFrom(b1, next)
  {
    ReadFieldLine(l, b1.data, b1.failure, p, next);
    assert b == Body(l + "\n" + b1.data, b1.failure);
  }

  lemma {:induction false} TerminatedConcat(a: seq<string>, b: seq<string>)
    ensures Terminated(a + b) == Terminated(a) + Terminated(b)
    decreases |a|
  {
    if |a| > 0 {
      assert (a + b)[1..] == a[1..] + b;
      TerminatedConcat(a[1..], b);
    } else {
      assert a + b == b;
    }
  }

  lemma {:induction false} AbsorbConcat(p: Pending, a: seq<string>, b: seq<string>)
    ensures Absorb(p, a + b) == Absorb(Absorb(p, a), b)
    decreases |a|
  {
    if |a| > 0 {
      assert (a + b)[1..] == a[1..] + b;
      assert (a + b)[0] == a[0];
      AbsorbCons(p, a + b);
      AbsorbCons(p, a);
      AbsorbConcat(ApplyField(p.(total := p.total + |a[0]| + 1), a[0]), a[1..], b);
    } else {
      assert a + b == b;
    }
  }

  lemma AbsorbCons(p: Pending, ls: seq<string>)
    requires |ls| > 0
    ensures Absorb(p, ls) == Absorb(ApplyField(p.(total := p.total + |ls[0]| + 1), ls[0]), ls[1..])
  {
  }

  lemma FieldLinesTail(ls: seq<string>)
    requires FieldLines(ls) && |ls| > 0
    ensures FieldLines(ls[1..]) && FieldLine(ls[0])
  {
    forall i | 0 <= i < |ls[1..]| ensures FieldLine(ls[1..][i]) {
      assert ls[1..][i] == ls[i + 1];
    }
  }

  /** The count after the first of several lines stays within the ceiling
      the whole block is within. */
  lemma FirstLineWithinCeiling(ls: seq<string>, m: string, p: Pending)
    requires |ls| > 0 && p.total + |Terminated(ls)| <= MaxEventSize
    ensures p.total + |ls[0]| + 1 + |Terminated(ls[1..])| <= MaxEventSize
  {
    TerminatedCons(ls, m);
  }

  /** The first of several field lines is read on its own. */
  lemma ReadFirstFieldLine(ls: seq<string>, m: string, f: Option<string>, p: Pending, next: Pending)
    requires |ls| > 0 && FieldLine(ls[0])
    requires p.total + |ls[0]| + 1 <= MaxEventSize
    requires next == ApplyField(p.(total := p.total + |ls[0]| + 1), ls[0])
    ensures ReadEventFrom(Body(Terminated(ls) + m, f), p) == ReadEventFrom(Body(Terminated(ls[1..]) + m, f), next)
  {
    TerminatedCons(ls, m);
    ReadFieldLineInto(ls[0], Body(Terminated(ls) + m, f), Body(Terminated(ls[1..]) + m, f), p, next);
  }

  /** Field lines within the ceiling are read one after the other into the
      event under construction, without ending it. */
  lemma {:induction false} ReadFieldLines(ls: seq<string>, m: string, f: Option<string>, p: Pending)
    requires FieldLines(ls)
    requires p.total + |Terminated(ls)| <= MaxEventSize
    ensures ReadEventFrom(Body(Terminated(ls) + m, f), p) == ReadEventFrom(Body(m, f), Absorb(p, ls))
    decreases |ls|
  {
    if |ls| > 0 {
      var next := ApplyField(p.(total := p.total + |ls[0]| + 1), ls[0]);
      FieldLinesTail(ls);
      FirstLineWithinCeiling(ls, m, p);
      ReadFirstFieldLine(ls, m, f, p, next);
      AbsorbCons(p, ls);
      ReadFieldLines(ls[1..], m, f, next);
    } else {
      assert Terminated(ls) + m == m;
    }
  }

  /** A blank line ends an event once data has been seen. */
  lemma BlankLineEndsEvent(m: string, f: Option<string>, p: Pending)
    requires p.hasData && p.total + 1 <= MaxEventSize
    ensures ReadEventFrom(Body("\n" + m, f), p) == Step(Delimited(p.event), Body(m, f))
  {
    ReadBlankLine(m, f);
    BlankLineEffect(p);
    EndStep(Body("\n" + m, f), p, "\n", Body(m, f));
  }

  /** Quirk: a blank line before any data is skipped WITHOUT resetting the
      event: the type, the id and the byte count (which now includes the
      blank line) all carry over to the next lines. */
  lemma BlankLineKeepsFields(m: string, f: Option<string>, p: Pending)
    requires !p.hasData && p.total + 1 <= MaxEventSize
    ensures ReadEventFrom(Body("\n" + m, f), p) == ReadEventFrom(Body(m, f), p.(total := p.total + 1))
  {
    ReadBlankLine(m, f);
    BlankLineEffect(p);
    ContinueStep(Body("\n" + m, f), p, "\n", Body(m, f), p.(total := p.total + 1));
  }

  /** The ceiling: the first complete line that brings the count above it
      is an error, whatever that line holds. */
  lemma OversizeLineFails(ls: seq<string>, l: string, m: string, f: Option<string>, p: Pending)
    requires FieldLines(ls) && '\n' !in l
    requires p.total + |Terminated(ls)| <= MaxEventSize < p.total + |Terminated(ls)| + |l| + 1
    ensures ReadEventFrom(Body(Terminated(ls) + l + "\n" + m, f), p) == Step(Failed(EventTooLarge), Body(m, f))
  {
    assert Terminated(ls) + l + "\n" + m == Terminated(ls) + (l + "\n" + m);
    ReadFieldLines(ls, l + "\n" + m, f, p);
    AbsorbCounts(p, ls);
    ReadStringOfLine(l, m, f);
    TooLargeStep(Body(l + "\n" + m, f), Absorb(p, ls), l + "\n", Body(m, f));
  }

  /** Quirk: at the end of input, pending data is delivered and the
      unterminated final fragment is dropped, whatever fields it holds. */
  lemma FinalFragmentDropped(fragment: string, p: Pending)
    requires '\n' !in fragment && p.hasData
    ensures ReadEventFrom(Body(fragment, None), p) == Step(Salvaged(p.event), Body("", None))
  {
    ReadStringEndsWithoutNewline(Body(fragment, None));
  }

  /** A read error other than the end of input loses the pending event. */
  lemma ReadErrorLosesPendingEvent(fragment: string, text: string, p: Pending)
    requires '\n' !in fragment
    ensures ReadEventFrom(Body(fragment, Some(text)), p) == Step(Failed(ReadFailed(text)), Body("", Some(text)))
  {
    ReadStringEndsWithoutNewline(Body(fragment, Some(text)));
  }

  // -----------------------------------------------------------------------
  // A reference encoder

  function DataLines(parts: seq<string>): (ls: seq<string>)
    ensures |ls| == |parts|
    ensures forall i :: 0 <= i < |parts| ==> ls[i] == "data: " + parts[i]
  {
    if |parts| == 0 then [] else ["data: " + parts[0]] + DataLines(parts[1..])
  }

  /** The `event:` and `id:` lines of an event, each only when set. */
  function HeaderLines(e: Event): seq<string> {
    (if e.eventType != "" then ["event: " + e.eventType] else [])
    + (if e.id != "" then ["id: " + e.id] else [])
  }

  /** The lines of an event: its header lines, then one `data:` line per
      line of the payload. */
  function EventLines(e: Event): seq<string> {
    HeaderLines(e) + DataLines(Split(e.data, '\n'))
  }

  /** An event on the wire: its lines, then a blank line. */
  function Encode(e: Event): string {
    Terminated(EventLines(e)) + "\n"
  }

  function EncodeAll(es: seq<Event>): string {
    if |es| == 0 then "" else Encode(es[0]) + EncodeAll(es[1..])
  }

  /** What the wire format can carry unchanged: no line break in the type or
      the id, no carriage return in the payload, and the whole event within
      the ceiling. */
  predicate Encodable(e: Event) {
    NoLineBreaks(e.eventType) && NoLineBreaks(e.id) && '\r' !in e.data && |Encode(e)| <= MaxEventSize
  }

  /** `name + v` is a field line when `v` has no line break. */
  lemma FieldLineOf(name: string, v: string)
    requires name != "" && name[|name| - 1] == ' ' && NoLineBreaks(name) && NoLineBreaks(v)
    ensures FieldLine(name + v)
  {
    var l := name + v;
    if |v| > 0 {
      assert l[|l| - 1] == v[|v| - 1];
    } else {
      assert l == name;
    }
    assert l[|l| - 1..] == [l[|l| - 1]];
    assert l[|l| - 1] != '\r';
  }

  lemma EventLinesAreFieldLines(e: Event)
    requires NoLineBreaks(e.eventType) && NoLineBreaks(e.id) && '\r' !in e.data
    ensures FieldLines(EventLines(e))
  {
    var parts := Split(e.data, '\n');
    forall i | 0 <= i < |parts| ensures FieldLine("data: " + parts[i]) {
      assert forall c :: c in parts[i] ==> c in e.data;
      FieldLineOf("data: ", parts[i]);
    }
    if e.eventType != "" { FieldLineOf("event: ", e.eventType); }
    if e.id != "" { FieldLineOf("id: ", e.id); }
  }

  /** What a payload line is appended to: the data so far and a `\n`, or
      nothing before the first `data:` line. */
  function Lead(p: Pending): string {
    if p.hasData then p.event.data + "\n" else ""
  }

  /** The event under construction after one `data: v` line. */
  function Appended(p: Pending, v: string): Pending {
    Pending(p.event.(data := Lead(p) + v), true, p.total + |v| + 7)
  }

  lemma AbsorbDataLine(p: Pending, parts: seq<string>)
    requires |parts| >= 1
    ensures Absorb(p, DataLines(parts)) == Absorb(Appended(p, parts[0]), DataLines(parts[1..]))
  {
    var v := parts[0];
    var ls := DataLines(parts);
    assert ls[0] == "data: " + v && |ls[0]| + 1 == |v| + 7;
    AbsorbCons(p, ls);
    assert ls[1..] == DataLines(parts[1..]);
    AppendedIsDataLine(p, v);
  }

  lemma AppendedIsDataLine(p: Pending, v: string)
    ensures ApplyField(p.(total := p.total + |v| + 7), "data: " + v) == Appended(p, v)
  {
    ApplyDataLine(p.(total := p.total + |v| + 7), v);
  }

  /** The payload after one more line, followed by the rest joined, is the
      payload before it followed by all of them joined. */
  lemma LeadJoin(p: Pending, parts: seq<string>)
    requires |parts| > 1
    ensures Lead(Appended(p, parts[0])) + Join(parts[1..], "\n") == Lead(p) + Join(parts, "\n")
  {
    var a, x, j := Lead(p), parts[0], Join(parts[1..], "\n");
    assert Lead(Appended(p, x)) == a + x + "\n";
    assert Join(parts, "\n") == x + "\n" + j;
    Regroup(a, x, "\n", j);
  }

  lemma Regroup(a: string, b: string, c: string, d: string)
    ensures a + b + c + d == a + (b + c + d)
  {
  }

  /** Reading `data:` lines appends their values, joined by `\n`, to the
      payload so far. */
  lemma {:induction false} AbsorbDataLines(p: Pending, parts: seq<string>)
    requires |parts| >= 1
    ensures Absorb(p, DataLines(parts)).hasData
    ensures Absorb(p, DataLines(parts)).event == p.event.(data := Lead(p) + Join(parts, "\n"))
    decreases |parts|
  {
    AbsorbDataLine(p, parts);
    if |parts| > 1 {
      AbsorbDataLines(Appended(p, parts[0]), parts[1..]);
      LeadJoin(p, parts);
    } else {
      assert DataLines(parts[1..]) == [];
    }
  }

  /** The header lines set the type and the id, and no data. */
  lemma AbsorbHeaderLines(e: Event)
    ensures Absorb(Fresh, HeaderLines(e)).event == Event(e.eventType, "", e.id)
    ensures !Absorb(Fresh, HeaderLines(e)).hasData
  {
    var t := e.eventType;
    var i := e.id;
    var head := if t != "" then ["event: " + t] else [];
    var ids := if i != "" then ["id: " + i] else [];
    var q1 := Fresh.(total := |"event: " + t| + 1);
    ApplyEventLine(q1, t);
    var p1 := if t != "" then ApplyField(q1, "event: " + t) else Fresh;
    if t != "" {
      AbsorbCons(Fresh, head);
      assert head[1..] == [];
    }
    assert Absorb(Fresh, head) == p1;
    var q2 := p1.(total := p1.total + |"id: " + i| + 1);
    ApplyIdLine(q2, i);
    if i != "" {
      AbsorbCons(p1, ids);
      assert ids[1..] == [];
    }
    AbsorbConcat(Fresh, head, ids);
    assert HeaderLines(e) == head + ids;
  }

  /** The lines of an event rebuild exactly that event. */
  lemma AbsorbEventLines(e: Event)
    ensures Absorb(Fresh, EventLines(e)).event == e
    ensures Absorb(Fresh, EventLines(e)).hasData
  {
    var parts := Split(e.data, '\n');
    AbsorbConcat(Fresh, HeaderLines(e), DataLines(parts));
    AbsorbHeaderLines(e);
    AbsorbDataLines(Absorb(Fresh, HeaderLines(e)), parts);
    JoinSplit(e.data, '\n');
  }

  /** Round trip for one event: reading an encoded event gives it back and
      leaves exactly what followed it. */
  lemma ReadEncodedEvent(e: Event, m: string, f: Option<string>)
    requires Encodable(e)
    ensures ReadEvent(Body(Encode(e) + m, f)) == Step(Delimited(e), Body(m, f))
  {
    var ls := EventLines(e);
    var b := Body(Encode(e) + m, f);
    var b1 := Body("\n" + m, f);
    assert b.data == Terminated(ls) + b1.data;
    EventLinesAreFieldLines(e);
    AbsorbCounts(Fresh, ls);
    ReadFieldLines(ls, b1.data, f, Fresh);
    AbsorbEventLines(e);
    BlankLineEndsEvent(m, f, Absorb(Fresh, ls));
  }

  /** Round trip for a whole stream: iterating over encoded events yields
      them all, in order; a clean end leaves `Err` nil, a read error after
      the last event is what `Err` reports. */
  lemma {:induction false} CollectEncoded(es: seq<Event>, s: Stream)
    requires forall i :: 0 <= i < |es| ==> Encodable(es[i])
    requires !s.closed && s.err.None? && s.body.data == EncodeAll(es)
    ensures Collect(s).0 == es
    ensures s.body.failure.None? ==> Collect(s).1.err.None?
    ensures s.body.failure.Some? ==> Collect(s).1.err == Some(ReadFailed(s.body.failure.value))
    decreases |es|
  {
    if |es| == 0 {
      ReadStringEndsWithoutNewline(s.body);
    } else {
      ReadEncodedEvent(es[0], EncodeAll(es[1..]), s.body.failure);
      var (next, ok) := Next(s);
      assert ok && next.body.data == EncodeAll(es[1..]) && next.current == Some(es[0]);
      CollectEncoded(es[1..], next);
    }
  }

  // -----------------------------------------------------------------------
  // Scenarios

  /** Splitting at a first `\n` takes off the part before it. */
  lemma SplitAtNewline(a: string, m: string)
    requires '\n' !in a
    ensures Split(a + "\n" + m, '\n') == [a] + Split(m, '\n')
  {
    var s := a + "\n" + m;
    IndexOfAfter(a, '\n', m);
    assert s[..|a|] == a;
    assert s[|a| + 1..] == m;
  }

  lemma SplitWithoutNewline(a: string)
    requires '\n' !in a
    ensures Split(a, '\n') == [a]
  {
  }

  /** An event with neither type nor id and a one-line payload. */
  lemma EncodePlainEvent(d: string)
    requires '\n' !in d
    ensures Encode(Event("", d, "")) == "data: " + d + "\n\n"
  {
    SplitWithoutNewline(d);
    assert EventLines(Event("", d, "")) == ["data: " + d];
  }

  /** An event with a type and a one-line payload. */
  lemma EncodeTypedEvent(t: string, d: string)
    requires '\n' !in d && t != ""
    ensures Encode(Event(t, d, "")) == "event: " + t + "\ndata: " + d + "\n\n"
  {
    SplitWithoutNewline(d);
    assert EventLines(Event(t, d, "")) == ["event: " + t, "data: " + d];
    assert Terminated(["event: " + t, "data: " + d]) == "event: " + t + "\n" + Terminated(["data: " + d]);
  }

  lemma EncodeThree(a: Event, b: Event, c: Event)
    ensures EncodeAll([a, b, c]) == Encode(a) + Encode(b) + Encode(c)
  {
    assert [a, b, c][1..] == [b, c];
    assert [b, c][1..] == [c];
    assert [c][1..] == [];
    assert EncodeAll([c]) == Encode(c) + "" == Encode(c);
    assert EncodeAll([b, c]) == Encode(b) + Encode(c);
    assert EncodeAll([a, b, c]) == Encode(a) + (Encode(b) + Encode(c));
  }

  lemma ThreeEventEncoding(x: string, y: string, t: string)
    requires NoLineBreaks(x) && NoLineBreaks(y) && t != ""
    ensures EncodeAll([Event("", x, ""), Event("", y, ""), Event(t, "", "")])
            == "data: " + x + "\n\ndata: " + y + "\n\nevent: " + t + "\ndata: \n\n"
  {
    var a, b, c := "data: " + x + "\n\n", "data: " + y + "\n\n", "event: " + t + "\ndata: \n\n";
    EncodePlainEvent(x);
    EncodePlainEvent(y);
    EncodeTypedEvent(t, "");
    assert "event: " + t + "\ndata: " + "" + "\n\n" == c;
    EncodeThree(Event("", x, ""), Event("", y, ""), Event(t, "", ""));
    assert a + b == "data: " + x + "\n\ndata: " + y + "\n\n";
    assert a + b + c == "data: " + x + "\n\ndata: " + y + "\n\nevent: " + t + "\ndata: \n\n";
  }

  lemma ThreeEventsEncodable(x: string, y: string, t: string)
    requires NoLineBreaks(x) && NoLineBreaks(y) && NoLineBreaks(t) && t != ""
    requires |x| + |y| + |t| + 16 <= MaxEventSize
    ensures forall e :: e in [Event("", x, ""), Event("", y, ""), Event(t, "", "")] ==> Encodable(e)
  {
    EncodePlainEvent(x);
    EncodePlainEvent(y);
    EncodeTypedEvent(t, "");
  }

  /** Two plain events and a typed one with an empty payload: all three
      arrive, in order, and nothing goes wrong. */
  lemma ThreeEventScenario(x: string, y: string, t: string)
    requires NoLineBreaks(x) && NoLineBreaks(y) && NoLineBreaks(t) && t != ""
    requires |x| + |y| + |t| + 16 <= MaxEventSize
    ensures Collect(Open(Body("data: " + x + "\n\ndata: " + y + "\n\nevent: " + t + "\ndata: \n\n", None))).0
            == [Event("", x, ""), Event("", y, ""), Event(t, "", "")]
    ensures Collect(Open(Body("data: " + x + "\n\ndata: " + y + "\n\nevent: " + t + "\ndata: \n\n", None))).1.err.None?
  {
    var es := [Event("", x, ""), Event("", y, ""), Event(t, "", "")];
    ThreeEventEncoding(x, y, t);
    ThreeEventsEncodable(x, y, t);
    assert forall i :: 0 <= i < |es| ==> es[i] in es;
    CollectEncoded(es, Open(Body(EncodeAll(es), None)));
  }

  lemma BlankLineSkippedInto(b: Body, b1: Body, p: Pending)
    requires b.data == "\n" + b1.data && b.failure == b1.failure
    requires !p.hasData && p.total + 1 <= MaxEventSize
    ensures ReadEventFrom(b, p) == ReadEventFrom(b1, p.(total := p.total + 1))
  {
    BlankLineKeepsFields(b1.data, b1.failure, p);
    assert b == Body("\n" + b1.data, b1.failure);
  }

  lemma BlankLineEndsInto(b: Body, b1: Body, p: Pending)
    requires b.data == "\n" + b1.data && b.failure == b1.failure
    requires p.hasData && p.total + 1 <= MaxEventSize
    ensures ReadEventFrom(b, p) == Step(Delimited(p.event), b1)
  {
    BlankLineEndsEvent(b1.data, b1.failure, p);
    assert b == Body("\n" + b1.data, b1.failure);
  }

  /** The event under construction after an `event: t` line. */
  function Typed(p: Pending, t: string): Pending {
    Pending(p.event.(eventType := t), p.hasData, p.total + |t| + 8)
  }

  /** An `event:` line read in the middle of a body. */
  lemma EventLineInto(t: string, b: Body, b1: Body, p: Pending)
    requires NoLineBreaks(t) && p.total + |t| + 8 <= MaxEventSize
    requires b.data == "event: " + t + "\n" + b1.data && b.failure == b1.failure
    ensures ReadEventFrom(b, p) == ReadEventFrom(b1, Typed(p, t))
  {
    var q := p.(total := p.total + |t| + 8);
    ApplyEventLine(q, t);
    assert ApplyField(q, "event: " + t) == Typed(p, t);
    FieldLineOf("event: ", t);
    ReadFieldLineInto("event: " + t, b, b1, p, Typed(p, t));
  }

  predicate OneLinePayloads(parts: seq<string>) {
    forall i :: 0 <= i < |parts| ==> NoLineBreaks(parts[i])
  }

  lemma DataLinesAreFieldLines(parts: seq<string>)
    requires OneLinePayloads(parts)
    ensures FieldLines(DataLines(parts))
  {
    forall i | 0 <= i < |parts| ensures FieldLine("data: " + parts[i]) {
      FieldLineOf("data: ", parts[i]);
    }
  }

  /** Consecutive `data:` lines and a blank line make one event whose
      payload is their values joined with `\n`, on top of whatever type and
      id were announced before. */
  lemma ReadDataBlock(parts: seq<string>, m: string, f: Option<string>, p: Pending)
    requires |parts| >= 1 && OneLinePayloads(parts) && !p.hasData
    requires p.total + |Terminated(DataLines(parts))| + 1 <= MaxEventSize
    ensures ReadEventFrom(Body(Terminated(DataLines(parts)) + ("\n" + m), f), p)
            == Step(Delimited(p.event.(data := Join(parts, "\n"))), Body(m, f))
  {
    var ls := DataLines(parts);
    DataLinesAreFieldLines(parts);
    ReadFieldLines(ls, "\n" + m, f, p);
    AbsorbCounts(p, ls);
    AbsorbDataLines(p, parts);
    BlankLineEndsEvent(m, f, Absorb(p, ls));
  }

  lemma TerminatedThree(a: string, b: string, c: string)
    ensures Terminated([a, b, c]) == a + "\n" + (b + "\n" + (c + "\n"))
  {
    assert [a, b, c][1..] == [b, c] && [b, c][1..] == [c] && [c][1..] == [];
    assert Terminated([c]) == c + "\n";
  }

  lemma JoinThree(x: string, y: string, z: string)
    ensures Join([x, y, z], "\n") == x + "\n" + y + "\n" + z
  {
    assert [x, y, z][1..] == [y, z] && [y, z][1..] == [z];
    assert Join([y, z], "\n") == y + "\n" + z;
  }

  lemma MultilineText(x: string, y: string, z: string, m: string)
    ensures Terminated(DataLines([x, y, z])) + ("\n" + m) == "data: " + x + "\ndata: " + y + "\ndata: " + z + "\n\n" + m
  {
    var l1, l2, l3 := "data: " + x, "data: " + y, "data: " + z;
    assert DataLines([x, y, z]) == [l1, l2, l3];
    TerminatedThree(l1, l2, l3);
  }

  /** Consecutive `data:` lines join with `\n`. */
  lemma MultilineScenario(x: string, y: string, z: string, m: string, f: Option<string>)
    requires NoLineBreaks(x) && NoLineBreaks(y) && NoLineBreaks(z)
    requires |x| + |y| + |z| + 22 <= MaxEventSize
    ensures ReadEvent(Body("data: " + x + "\ndata: " + y + "\ndata: " + z + "\n\n" + m, f))
            == Step(Delimited(Event("", x + "\n" + y + "\n" + z, "")), Body(m, f))
  {
    MultilineText(x, y, z, m);
    JoinThree(x, y, z);
    ReadDataBlock([x, y, z], m, f, Fresh);
  }

  lemma TypeAcrossBlankText(t: string, d: string, m: string)
    ensures "event: " + t + "\n" + ("\n" + (Terminated(DataLines([d])) + ("\n" + m)))
            == "event: " + t + "\n\ndata: " + d + "\n\n" + m
  {
    assert DataLines([d]) == ["data: " + d];
    assert Terminated(["data: " + d]) == "data: " + d + "\n";
  }

  /** Quirk in action: a type announced before a stray blank line still
      applies to the data after it. */
  lemma TypeCarriesAcrossBlankLine(t: string, d: string, m: string, f: Option<string>)
    requires NoLineBreaks(t) && NoLineBreaks(d)
    requires |t| + |d| + 17 <= MaxEventSize
    ensures ReadEvent(Body("event: " + t + "\n\ndata: " + d + "\n\n" + m, f)) == Step(Delimited(Event(t, d, "")), Body(m, f))
  {
    var rest := Terminated(DataLines([d])) + ("\n" + m);
    var b1 := Body("\n" + rest, f);
    TypeAcrossBlankText(t, d, m);
    EventLineInto(t, Body("event: " + t + "\n" + b1.data, f), b1, Fresh);
    var p1 := Typed(Fresh, t);
    BlankLineKeepsFields(rest, f, p1);
    assert |Terminated(DataLines([d]))| == |d| + 7;
    ReadDataBlock([d], m, f, p1.(total := p1.total + 1));
  }

  /** A block with a type but no data is no event: at the end of input it
      is simply exhausted. */
  lemma TypeOnlyBlockIsDropped(t: string)
    requires NoLineBreaks(t) && |t| + 9 <= MaxEventSize
    ensures ReadEvent(Body("event: " + t + "\n\n", None)).outcome == Exhausted
  {
    var b2 := Body("", None);
    var b1 := Body("\n", None);
    var b0 := Body("event: " + t + "\n" + b1.data, None);
    assert b0 == Body("event: " + t + "\n\n", None);
    EventLineInto(t, b0, b1, Fresh);
    BlankLineSkippedInto(b1, b2, Typed(Fresh, t));
    ReadStringEndsWithoutNewline(b2);
  }

  // -----------------------------------------------------------------------
  // The iterator

  /** Once the input has ended cleanly, `Next` keeps answering false and
      `Err` stays nil. */
  lemma CleanEndIsTerminal(s: Stream)
    requires !s.closed && s.err.None?
    requires !Next(s).1 && Next(s).0.err.None?
    ensures Next(s).0.body == Body("", None)
    ensures Next(Next(s).0) == (Next(s).0, false)
  {
    var s1 := Next(s).0;
    assert ReadString(s1.body) == EndOfInput("", None);
  }

  /** The end of input with no data seen answers false and leaves `Err`
      nil, whatever unterminated fragment was left. */
  lemma EndWithoutDataIsClean(s: Stream, fragment: string)
    requires !s.closed && s.err.None? && s.body == Body(fragment, None) && '\n' !in fragment
    ensures Next(s) == (s.(body := Body("", None)), false)
  {
    ReadStringEndsWithoutNewline(s.body);
  }

  /** A latched error survives any number of further calls. */
  lemma {:induction false} ErrorIsSticky(s: Stream, n: nat)
    requires s.err.Some?
    ensures NextN(s, n) == s
    decreases n
  {
    if n > 0 {
      ErrorIsSticky(Next(s).0, n - 1);
    }
  }

  /** `n` calls of `Next`. */
  function NextN(s: Stream, n: nat): Stream
    decreases n
  {
    if n == 0 then s else NextN(Next(s).0, n - 1)
  }

  /** `Close` releases the body once; a second call returns nil and changes
      nothing, and a closed stream yields no events. */
  lemma CloseIsIdempotent(s: Stream, first: Option<string>, second: Option<string>)
    ensures var c := Close(s, first).0;
            && Close(c, second) == (c, None)
            && c.releases == (if s.closed then s.releases else s.releases + 1)
            && Next(c) == (c, false)
  {
  }

  /** An error response of the server becomes STREAM_ERROR with its status
      and its body quoted. */
  lemma ServerErrorScenario()
    ensures OpenStream(Some(StreamRequest("Test", "", "")), Responded(HttpResponse(400, "text/plain", Body("Invalid prompt", None))))
            == Err(Error(StreamError, "stream request failed: Invalid prompt", 400, None))
  {
    assert ErrorBodyExcerpt(Body("Invalid prompt", None)) == "Invalid prompt";
    assert StreamErrorPrefix + "Invalid prompt" == "stream request failed: Invalid prompt";
  }

  /** `%d` of the event ceiling prints "10485760". */
  lemma MaxEventSizeText()
    ensures NatToDecimal(MaxEventSize) == "10485760"
  {
    assert DecimalValue("1") == 1 by { assert "1"[..0] == ""; }
    assert DecimalValue("10") == 10 by { assert "10"[..1] == "1"; }
    assert DecimalValue("104") == 104 by { assert "104"[..2] == "10"; }
    assert DecimalValue("1048") == 1048 by { assert "1048"[..3] == "104"; }
    assert DecimalValue("10485") == 10485 by { assert "10485"[..4] == "1048"; }
    assert DecimalValue("104857") == 104857 by { assert "104857"[..5] == "10485"; }
    assert DecimalValue("1048576") == 1048576 by { assert "1048576"[..6] == "104857"; }
    assert DecimalValue("10485760") == 10485760 by { assert "10485760"[..7] == "1048576"; }
    CanonicalIsNatToDecimal("10485760");
  }

  /** What `Err` prints: a read error's own text, and for an oversized event
      the ceiling in decimal. */
  lemma SizeErrorText(text: string)
    ensures FailureText(ReadFailed(text)) == text
    ensures FailureText(EventTooLarge) == "event exceeds maximum size of " + "10485760" + " bytes"
  {
    MaxEventSizeText();
  }

  /** `Event`: nil on a new stream; after `Next` answers true, the event
      `readEvent` produced; after false, whatever was current before. */
  lemma EventAfterNext(b: Body, s: Stream)
    ensures CurrentEvent(Open(b)).None?
    ensures Next(s).1 ==> CurrentEvent(Next(s).0) == Some(ReadEvent(s.body).outcome.event)
    ensures !Next(s).1 ==> CurrentEvent(Next(s).0) == CurrentEvent(s)
  {
  }

  /** `Err`: nil on a new stream; after `Next` on an open stream without an
      error, the failure `readEvent` met, and nil when it met none. */
  lemma ErrAfterNext(b: Body, s: Stream)
    ensures StreamErr(Open(b)).None?
    ensures !s.closed && s.err.None? && ReadEvent(s.body).outcome.Failed? ==>
              StreamErr(Next(s).0) == Some(ReadEvent(s.body).outcome.error)
    ensures !s.closed && s.err.None? && !ReadEvent(s.body).outcome.Failed? ==> StreamErr(Next(s).0).None?
    ensures s.err.Some? ==> StreamErr(Next(s).0) == StreamErr(s)
  {
  }
}

=== FILE: strings.dfy ===
/** The few operations of Go's `strings` and `fmt` packages that the client
    relies on, over strings whose characters stand for single bytes, and
    the `Join`/`Split` pair the event-stream encoder of the proofs uses. */
module GoStrings {
  import opened Wrappers

  predicate HasPrefix(s: string, prefix: string) {
    |prefix| <= |s| && s[..|prefix|] == prefix
  }

  predicate HasSuffix(s: string, suffix: string) {
    |suffix| <= |s| && s[|s| - |suffix|..] == suffix
  }

  /** `strings.CutPrefix`: the string without `prefix` and whether it was
      there. What is left is stated by `CutPrefixLeavesSuffix`. */
  function CutPrefix(s: string, prefix: string): (r: (string, bool))
    ensures r.1 <==> HasPrefix(s, prefix)
    ensures r.1 ==> |r.0| == |s| - |prefix|
    ensures !r.1 ==> r.0 == s
  {
    if HasPrefix(s, prefix) then (s[|prefix|..], true) else (s, false)
  }

  /** Cutting a present prefix leaves exactly what came after it. */
  lemma CutPrefixLeavesSuffix(s: string, prefix: string)
    requires HasPrefix(s, prefix)
    ensures prefix + CutPrefix(s, prefix).0 == s
  {
    assert s == s[..|prefix|] + s[|prefix|..];
  }

  /** `strings.TrimSuffix`: removes ONE occurrence of `suffix` at the end.
      What is left is stated by `TrimSuffixLeavesPrefix`. */
  function TrimSuffix(s: string, suffix: string): (r: string)
    ensures HasSuffix(s, suffix) ==> |r| == |s| - |suffix|
    ensures !HasSuffix(s, suffix) ==> r == s
  {
    if HasSuffix(s, suffix) then s[..|s| - |suffix|] else s
  }

  /** Trimming a present suffix leaves exactly what came before it. */
  lemma TrimSuffixLeavesPrefix(s: string, suffix: string)
    requires HasSuffix(s, suffix)
    ensures TrimSuffix(s, suffix) + suffix == s
  {
    assert s == s[..|s| - |suffix|] + s[|s| - |suffix|..];
  }

  /** `strings.IndexByte`: the position of the first `c`, if any. */
  function IndexOf(s: string, c: char): (r: Option<nat>)
    ensures r.None? <==> c !in s
    ensures r.Some? ==> r.value < |s| && s[r.value] == c && c !in s[..r.value]
  {
    if |s| == 0 then None
    else if s[0] == c then Some(0)
    else
      match IndexOf(s[1..], c)
      case None => None
      case Some(i) =>
        assert s[..i + 1] == [s[0]] + s[1..][..i];
        Some(i + 1)
  }

  /** Join with a separator, as `strings.Join` does. The client never calls
      it; it builds the payload the event-stream encoder splits. */
  function Join(parts: seq<string>, sep: string): string {
    if |parts| == 0 then ""
    else if |parts| == 1 then parts[0]
    else parts[0] + sep + Join(parts[1..], sep)
  }

  /** Split on a single separator character, as `strings.Split` does: the
      maximal separator-free pieces, in order; there is always at least one.
      The client never calls it; the event-stream encoder uses it to cut a
      payload into `data:` lines. */
  function Split(s: string, sep: char): (r: seq<string>)
    ensures |r| >= 1
    ensures forall i :: 0 <= i < |r| ==> sep !in r[i]
    ensures forall i, c :: 0 <= i < |r| && c in r[i] ==> c in s
    decreases |s|
  {
    match IndexOf(s, sep)
    case None => [s]
    case Some(i) =>
      var tail := Split(s[i + 1..], sep);
      assert forall j, c :: 0 <= j < |tail| && c in tail[j] ==> c in s by {
        forall j, c | 0 <= j < |tail| && c in tail[j] ensures c in s {
          assert c in s[i + 1..];
          assert s == s[..i + 1] + s[i + 1..];
        }
      }
      [s[..i]] + tail
  }

  /** Splitting on a separator and joining the pieces back gives the input. */
  lemma {:induction false} JoinSplit(s: string, sep: char)
    ensures Join(Split(s, sep), [sep]) == s
    decreases |s|
  {
    match IndexOf(s, sep)
    case None =>
    case Some(i) =>
      var tail := Split(s[i + 1..], sep);
      JoinSplit(s[i + 1..], sep);
      assert Split(s, sep) == [s[..i]] + tail;
      assert s == s[..i] + [sep] + s[i + 1..];
  }

  /** The value of a decimal digit character. */
  function DigitValue(c: char): int {
    c as int - '0' as int
  }

  function DigitChar(d: nat): (c: char)
    requires d < 10
    ensures '0' <= c <= '9' && DigitValue(c) == d
  {
    ('0' as int + d) as char
  }

  /** The number a string of decimal digits denotes, read most significant
      digit first; independent of how `NatToDecimal` builds its digits. */
  function DecimalValue(s: string): int {
    if |s| == 0 then 0 else DecimalValue(s[..|s| - 1]) * 10 + DigitValue(s[|s| - 1])
  }

  /** The form `%d` gives a natural number: at least one digit, only
      digits, and no leading zero except in "0" itself. */
  predicate Canonical(s: string) {
    && |s| >= 1
    && (forall i :: 0 <= i < |s| ==> '0' <= s[i] <= '9')
    && (s[0] == '0' ==> |s| == 1)
  }

  /** Decimal rendering of a natural number, as `%d` prints it: canonical
      digits that denote `n`. */
  function NatToDecimal(n: nat): (r: string)
    ensures Canonical(r)
    ensures DecimalValue(r) == n
  {
    if n < 10 then
      var r := [DigitChar(n)];
      assert r[..0] == [];
      r
    else
      var x := NatToDecimal(n / 10);
      var r := x + [DigitChar(n % 10)];
      assert r[..|r| - 1] == x;
      assert |x| == 1 ==> x[..0] == [];
      r
  }

  /** Digits without a leading zero denote a positive number. */
  lemma {:induction false} LeadingDigitPositive(s: string)
    requires |s| >= 1 && (forall i :: 0 <= i < |s| ==> '0' <= s[i] <= '9') && s[0] != '0'
    ensures DecimalValue(s) >= 1
    decreases |s|
  {
    if |s| == 1 {
      assert s[..0] == [];
    } else {
      var x := s[..|s| - 1];
      assert x[0] == s[0];
      LeadingDigitPositive(x);
    }
  }

  /** A number ending in digit `d` splits back into its prefix and `d`. */
  lemma LastDigitSplits(v: int, d: int)
    requires v >= 0 && 0 <= d < 10
    ensures (v * 10 + d) / 10 == v && (v * 10 + d) % 10 == d
  {
  }

  /** Every canonical digit string is what `%d` prints for the number it
      denotes, so `NatToDecimal` and `DecimalValue` are inverse bijections. */
  lemma {:induction false} CanonicalIsNatToDecimal(s: string)
    requires Canonical(s)
    ensures DecimalValue(s) >= 0
    ensures NatToDecimal(DecimalValue(s)) == s
    decreases |s|
  {
    var c := s[|s| - 1];
    var d := DigitValue(c);
    assert DigitChar(d) == c;
    if |s| == 1 {
      assert s[..0] == [];
      assert s == [c];
    } else {
      var x := s[..|s| - 1];
      assert x[0] == s[0] && x[0] != '0';
      assert Canonical(x);
      CanonicalIsNatToDecimal(x);
      LeadingDigitPositive(x);
      LastDigitSplits(DecimalValue(x), d);
      assert s == x + [c];
    }
  }

  /** Decimal rendering of an integer, as `%d` prints it: a minus sign
      before the digits of the magnitude when negative. */
  function IntToDecimal(n: int): (r: string)
    ensures n >= 0 ==> Canonical(r) && DecimalValue(r) == n
    ensures n < 0 ==> |r| >= 2 && r[0] == '-' && Canonical(r[1..]) && DecimalValue(r[1..]) == -n
  {
    if n < 0 then
      var r := "-" + NatToDecimal(-n);
      assert r[1..] == NatToDecimal(-n);
      r
    else NatToDecimal(n)
  }

  /** Neither a line feed nor a carriage return occurs in `s`. */
  predicate NoLineBreaks(s: string) {
    '\n' !in s && '\r' !in s
  }
}

=== FILE: tokens.dfy ===
/** The bearer-token character check (client.go `isValidToken`), which keeps
    CR, LF and other control characters out of the Authorization header. */
module Tokens {

  /** The per-character rejection test, with the same four alternatives the
      source spells out (the first two are already covered by the third). */
  predicate IsRejectedChar(c: char) {
    c == '\r' || c == '\n' || (c as int) < 0x20 || (c as int) == 0x7f
  }

  /** A token is valid when none of its characters is rejected. */
  function IsValidToken(token: string): (r: bool)
    ensures r <==> forall i :: 0 <= i < |token| ==> 0x20 <= token[i] as int && token[i] as int != 0x7f
  {
    if |token| == 0 then true
    else !IsRejectedChar(token[0]) && IsValidToken(token[1..])
  }

  /** A token holding a line break is never valid, wherever it stands; the
      empty token is. */
  lemma LineBreakInvalidatesToken(prefix: string, c: char, suffix: string)
    requires c == '\r' || c == '\n'
    ensures !IsValidToken(prefix + [c] + suffix)
    ensures IsValidToken("")
  {
    assert (prefix + [c] + suffix)[|prefix|] == c;
  }
}

=== FILE: types.dfy ===
/** Response records and their status predicates (types.go). Only the
    fields the predicates read are kept. */
module Types {

  // Health status values.
  const StatusOK: string := "ok"
  const StatusError: string := "error"

  // Synchronous run status values.
  const RunStatusCompleted: string := "completed"
  const RunStatusError: string := "error"

  // Asynchronous job status values.
  const JobStatusPending: string := "pending"
  const JobStatusRunning: string := "running"
  const JobStatusCompleted: string := "completed"
  const JobStatusFailed: string := "failed"
  const JobStatusCancelled: string := "cancelled"

  datatype ComponentHealth = ComponentHealth(name: string, status: string, error: string)

  datatype HealthResponse = HealthResponse(name: string, status: string, version: string, components: seq<ComponentHealth>)

  datatype RunResponse = RunResponse(id: string, status: string, output: string, error: string, sessionId: string)

  datatype Job = Job(id: string, status: string, output: string, error: string)

  predicate HealthIsHealthy(h: HealthResponse) {
    h.status == StatusOK
  }

  predicate ComponentIsHealthy(c: ComponentHealth) {
    c.status == StatusOK
  }

  predicate RunIsSuccess(r: RunResponse) {
    r.status == RunStatusCompleted
  }

  predicate JobIsCompleted(j: Job) {
    j.status == JobStatusCompleted
  }

  predicate JobIsRunning(j: Job) {
    j.status == JobStatusRunning || j.status == JobStatusPending
  }

  predicate JobIsFailed(j: Job) {
    j.status == JobStatusFailed
  }

  predicate JobIsCancelled(j: Job) {
    j.status == JobStatusCancelled
  }

  /** The status a job predicate reports, as one value: `Unrecognised` for a status
      none of the four predicates recognises. */
  datatype JobPhase = Active | Completed | Failed | Cancelled | Unrecognised

  function JobPhaseOf(j: Job): (p: JobPhase)
    ensures p == Active <==> JobIsRunning(j)
    ensures p == Completed <==> JobIsCompleted(j)
    ensures p == Failed <==> JobIsFailed(j)
    ensures p == Cancelled <==> JobIsCancelled(j)
  {
    if j.status == "running" || j.status == "pending" then Active
    else if j.status == "completed" then Completed
    else if j.status == "failed" then Failed
    else if j.status == "cancelled" then Cancelled
    else Unrecognised
  }

  /** At most one of the four job predicates holds for any status, and for a
      status outside the five documented values none holds. */
  lemma JobPredicatesExclusive(j: Job)
    ensures (if JobIsRunning(j) then 1 else 0) + (if JobIsCompleted(j) then 1 else 0)
          + (if JobIsFailed(j) then 1 else 0) + (if JobIsCancelled(j) then 1 else 0) <= 1
    ensures j.status !in {"pending", "running", "completed", "failed", "cancelled"} ==>
              !JobIsRunning(j) && !JobIsCompleted(j) && !JobIsFailed(j) && !JobIsCancelled(j)
  {
  }

  /** A job whose status is pending or running counts as running and as
      nothing else. */
  lemma PendingCountsAsRunning(j: Job)
    requires j.status == "pending"
    ensures JobIsRunning(j) && !JobIsCompleted(j) && !JobIsFailed(j) && !JobIsCancelled(j)
  {
  }

  /** Health of the service and of a component is decided by the status
      text alone: "ok" is healthy, the documented "error" value is not. */
  lemma HealthDecidedByStatus(h: HealthResponse, c: ComponentHealth)
    ensures HealthIsHealthy(h) <==> h.status == "ok"
    ensures ComponentIsHealthy(c) <==> c.status == "ok"
    ensures h.status == StatusError ==> !HealthIsHealthy(h)
    ensures c.status == StatusError ==> !ComponentIsHealthy(c)
  {
  }

  /** A run succeeds exactly when its status is "completed"; the documented
      failure status "error" is not a success. */
  lemma RunSuccessDecidedByStatus(r: RunResponse)
    ensures RunIsSuccess(r) <==> r.status == "completed"
    ensures r.status == RunStatusError ==> !RunIsSuccess(r)
  {
  }
}

=== FILE: wrappers.dfy ===
/** Optional values and results, standing in for Go's nil pointers and
    `(value, error)` return pairs. */
module Wrappers {

  /** A value that may be absent: `None` plays the part of Go's `nil`. */
  datatype Option<+T> = None | Some(value: T)

  /** Either a value or an error, like Go's `(T, error)` with exactly one
      of the two set. */
  datatype Result<+T, +E> = Ok(value: T) | Err(error: E)
}
